=== FILE: README.md ===
# GGTranslate in Dafny

GGTranslate is a browser extension that translates Twitch chat messages written in
non-Latin scripts into English. It has three parts, and this project models the
decisions each of them makes:

- **the background worker** (`background.js`) — a FIFO queue of translation
  requests, served one at a time. For each request it:
  - runs the lazy daily and monthly quota resets;
  - prunes the rolling one-hour window of GTX timestamps;
  - walks the three configured priority slots, checking each engine's
    availability, rate-limiting the free GTX endpoint and calling the engine's
    adapter until one returns;
  - answers with the translation or the last error.

  The three adapters are:
  - GTX, the free `translate.googleapis.com` endpoint;
  - the official Cloud Translation API, including its five-pass HTML-entity
    decoding;
  - a local OpenAI-compatible server.
- **the chat-page script** (`content.js`) — the ignore list; the "at least two
  non-ASCII UTF-16 code units" gate; the at-most-once marking of a chat line;
  and the text appended to the line once the reply arrives.
- **the settings page** (`popup.js`) — form normalisation and validation on
  save; filling the form back from storage; and the percentage, remaining
  count and colour band of the three usage bars.

Everything is a pure function over immutable data. Storage is a `Store` value;
absent records are `None`. The clock, the timer and the network are inputs:

- a `Dispatcher.Cycle` carries the instants and date keys a cycle would read;
- each priority `Dispatcher.Slot` carries the reply each adapter would await.

JavaScript strings are `string`, and `JsString.Length` counts UTF-16 code units.

The files are:

- `common.dfy` — `Option`, `Result`, truthiness;
- `jsstring.dfy` — `length`, `trim`, `toLowerCase`, `split`/`join`, `parseInt`;
- `quota.dfy` — the stored counters and their resets;
- `ratelimit.dfy` — request spacing and the hourly window;
- `availability.dfy` — the configuration and `checkEngineAvailability`;
- `adapters.dfy` — the three engine adapters;
- `dispatcher.dfy` — the queue and the priority loop;
- `content.dfy` — the chat page;
- `popup.dfy` — the settings page.

## Model

| member | source | states |
|---|---|---|
| JsString.Length | background.js:134 | `text.length` counts UTF-16 code units: between one and two per character, zero only for the empty text, and exactly one per character for text inside the Basic Multilingual Plane |
| JsString.LengthOfChar | background.js:134 | a single character is one code unit, or two outside the Basic Multilingual Plane |
| JsString.LengthAppend | content.js:226-229 | the length of a concatenation is the sum of the lengths |
| JsString.Trim | popup.js:61 | `trim()` yields a contiguous slice that neither starts nor ends with ECMAScript whitespace, empty exactly when the text is all whitespace |
| JsString.TrimIdempotent | popup.js:71-73 | trimming an already trimmed value changes nothing |
| JsString.ToLower | content.js:42 | `toLowerCase()` keeps the length and maps every character independently (ASCII letters shifted, everything else kept) |
| JsString.Split | content.js:41 | `split(',')` yields at least one piece, no piece contains a comma, and joining the pieces with commas gives the input back |
| JsString.SplitJoin | content.js:41 | splitting a comma-join of comma-free pieces returns exactly those pieces (the inverse of `Split`) |
| JsString.ParseInt | popup.js:62-65 | `parseInt(s, 10)` is `NaN` exactly when no digit follows the leading whitespace and optional sign |
| JsString.ParseIntOfText | popup.js:62-65 | for any leading whitespace, an optional `+` or `-`, and text opening with a digit run, `parseInt` gives the run's value, negated exactly after `-` (so `" -5"` reads as -5 and `"+7"` as 7) |
| JsString.ParseIntSkipsSpace | popup.js:62-65 | leading ECMAScript whitespace does not change what `parseInt` reads |
| JsString.ParseIntSignChar | popup.js:62-65 | a `+` before a digit run keeps its value and a `-` negates it |
| JsString.NatToString | popup.js:33-36 | the text a number shows in a form field: at least one character, all decimal digits, with no leading zero except for 0 itself |
| JsString.IntToString | popup.js:33-36 | a negative number shows as `-` followed by at least one digit; any other number shows as digits only |
| JsString.DigitsOfNatToString | popup.js:33-36 | the digits shown for a number have exactly that number's decimal value |
| JsString.ParseIntOfIntToString | popup.js:33-36 | `parseInt` reads back the decimal text of every integer of the model, negative ones included, whatever non-digit text follows (for JavaScript numbers only safe integers, see Left out) |
| Quota.GetGtxStats | background.js:372-378 | a stored GTX record is returned as stored; a missing one reads as zero usage, never reset |
| Quota.GetStats | background.js:308-320 | a stored official record is returned as stored; a missing one has zero counters and no reset stamps, the billing period included |
| Quota.CheckGtxQuotaReset | background.js:388-402 | afterwards today is stamped; a new day zeroes the GTX count; on the same day storage is untouched; the official record is never touched |
| Quota.CheckQuotaReset | background.js:331-352 | afterwards the billing period is stamped; a new period zeroes the monthly count and stamps the instant; the daily count and its stamp, and the GTX record, are never touched |
| Quota.CheckOfficialDailyReset | background.js:354-368 | afterwards today is stamped; a new day zeroes the daily character count; the monthly side and the GTX record are never touched |
| Quota.UpdateGtxStats | background.js:380-386 | adds `count` to the GTX daily usage and changes nothing else |
| Quota.UpdateStats | background.js:322-329 | adds the characters to both the daily and the monthly official counts and keeps every stamp |
| Quota.ResetAll | background.js:117-120 | after the three checks of a cycle all three records carry the current day or period |
| Quota.ResetsIdempotent | background.js:331-402 | each reset check run twice with the same key gives the same storage as running it once |
| Quota.ResetAllIdempotent | background.js:117-120 | a second reset pass within the same day and period changes nothing, even with a different instant |
| Quota.FreshRecordTriggersMonthlyReset | background.js:312-346 | with no stored official record the monthly branch always runs, since the default record has no billing period |
| Quota.OfficialResetsCommute | background.js:331-368 | the monthly and the daily official checks commute: the two clocks are independent |
| Quota.MonthlyResetKeepsDaily | background.js:342-346 | a new billing period on an unchanged day zeroes the monthly count and keeps the daily count |
| RateLimit.SafeRpm | background.js:77 | the requests-per-minute setting is clamped into 1..120 and kept unchanged inside that range |
| RateLimit.MinRequestInterval | background.js:75-80 | the spacing lies between 500 ms and 60 s, and spacing times the clamped rate is exactly one minute |
| RateLimit.Delay | background.js:145-149 | the pause is zero once the interval has elapsed, and otherwise makes up exactly the missing part |
| RateLimit.DelayRestoresSpacing | background.js:145-150 | if the timer fires no earlier than asked, the new request time is at least one interval after the previous one |
| RateLimit.Prune | background.js:123-124 | the filtered window keeps exactly the timestamps under one hour old, each as often as before, in their original order |
| RateLimit.PruneIdempotent | background.js:123-124 | pruning again at the same instant removes nothing more |
| RateLimit.PruneMonotone | background.js:123-124 | pruning at an earlier instant and then a later one equals pruning at the later one |
| Availability.CheckEngineAvailability | background.js:188-209 | for each engine, each refusal reason is given exactly when its test is the first to fail (GTX daily then hourly; official key, monthly, then daily, where landing on a limit is allowed; local URL), `Available` exactly when none fails, and an unrecognised engine is refused |
| Availability.GtxDailyCapHolds | background.js:191 | once the daily count reaches the limit GTX is refused with the daily reason, whatever the window |
| Availability.GtxHourlyCapHolds | background.js:192 | 99 requests inside the last hour refuse GTX with the hourly reason even after pruning |
| Availability.PruneKeepsRecent | background.js:124 | a window whose timestamps are all recent survives pruning unchanged |
| Adapters.Head | background.js:224 | `item[0]` throws exactly when the item is `null`; for a string it is the string's first character, or empty for the empty string; for an array it is its first element as the join renders it: a string as itself, nothing for `null` or an empty array |
| Adapters.JoinHeads | background.js:224 | the join of the segment heads fails, with the null-access message, exactly when some segment is `null` |
| Adapters.JoinHeadsOk | background.js:224 | without a `null` segment the join succeeds with every segment's head, in order, one after another: the map followed by `join('')` |
| Adapters.ParseGtx | background.js:223-227 | a body that is not an array whose first element is an array is rejected with "Invalid response format"; otherwise the segment heads are joined |
| Adapters.FetchTranslationGtx | background.js:212-228 | a transport error is rethrown; a non-ok status throws "HTTP error! status: N" before the body is read; a JSON syntax error is rethrown; otherwise the body is parsed |
| Adapters.ParseGtxSegments | background.js:223-225 | a well-formed body whose segments each open with the translated text, whatever follows it (the original, `null`s, nested arrays), yields the translated texts concatenated in order, and everything after them is dropped |
| Adapters.ReplaceAllPieces | background.js:265-269 | a global replace over text cut into occurrences and pieces where no occurrence can start replaces exactly the occurrences |
| Adapters.DecodeEntities | background.js:264-269 | the five-pass entity decoding never lengthens the text |
| Adapters.ReplaceAllShortens | background.js:265-269 | a global replace whose replacement is no longer than its pattern never lengthens the text |
| Adapters.PassShortens | background.js:265-269 | each of the five decoding passes never lengthens the text |
| Adapters.ReplaceAllAbsent | background.js:265-269 | a global replace leaves text unchanged when its pattern cannot start anywhere in it |
| Adapters.DecodeLeavesPlainText | background.js:264-269 | text without `&` holds no entity and comes back from the decoding unchanged |
| Adapters.DecodeStep | background.js:264-269 | each decoding pass turns the entities still waiting for it into their characters and leaves the rest alone |
| Adapters.EscapeRoundTrip | background.js:264-269 | the five-pass decoding undoes HTML escaping of any text without `&` |
| Adapters.EscapedAmpersandDecodesTwice | background.js:267-268 | with an `&` the round trip fails: escaped `&lt;` decodes to `<`, because the `&amp;` pass runs before the `&lt;` pass |
| Adapters.DecodeExamples | background.js:264-269 | reference decodings: ordinary mixed text, the double unescape of `&amp;lt;`, and `&amp;quot;` kept at one level |
| Adapters.UntouchedPass | background.js:265-269 | a pass leaves text in which its entity cannot start unchanged |
| Adapters.FetchTranslationOfficial | background.js:230-273 | quota is charged exactly when an ok body carries a non-empty translation list; success exactly when the first entry has a text, which comes back entity-decoded; each error path throws its own message (body error, "API Error N", syntax error, "Invalid Official API response", missing text after charging) |
| Adapters.FetchTranslationLocal | background.js:275-304 | a non-ok status throws the status and the raw body; success exactly when the first choice has a message with content, returned trimmed (no surrounding whitespace); a missing choice or message throws "Invalid Local LLM response format"; a message without content throws the `trim`-of-`undefined` error |
| Dispatcher.TryEngine | background.js:132-175 | one slot: skipped with the availability reason exactly when unavailable, with nothing changed; otherwise reports what the adapter returned or threw; GTX stamps the request time even on failure and only a returned fetch adds a timestamp and one daily request; official charges the text's UTF-16 length to both counts whenever its adapter charged, even if it then threw, and keeps every reset stamp; local changes nothing |
| Dispatcher.TryEngines | background.js:127-176 | the priority loop tries slots in order, one outcome each, no outcome before the last is a return, and it stops early only at a return |
| Dispatcher.LoopThreadsState | background.js:132-175 | each slot's outcome is that engine's attempt on exactly the state every earlier slot left: GTX's time stamp, window entry and count, and Official's charge carry over to the later slots |
| Dispatcher.SlotThreadsState | background.js:132-175 | the outcome of slot `i` is its attempt on the state the slots before `i` left |
| Dispatcher.LoopEndsThreaded | background.js:132-176 | the loop ends in the state its last attempt left, with nothing changed by slots it never reached |
| Dispatcher.LastError | background.js:130-175 | `lastError` is empty exactly when every outcome returned; otherwise it is the reason or message of an outcome after which every outcome returned |
| Dispatcher.Respond | background.js:178-182 | success exactly when the last outcome returned a non-empty text, which is sent; otherwise the last error or "All translation attempts failed." |
| Dispatcher.Prepare | background.js:117-124 | a cycle's engine checks start on the store the three resets leave, which carries the current day and period, and on the hourly window pruned at the cycle's instant (only recent timestamps, in order); a store already stamped today keeps its GTX count |
| Dispatcher.RunCycle | background.js:117-182 | one to three outcomes, following the priority order, stopping at the first return; success exactly when the last outcome returned a non-empty text; otherwise the last error or the generic message |
| Dispatcher.CycleThreadsState | background.js:117-176 | every slot of a cycle is tried on the state the resets, the prune and the earlier slots left, and the cycle ends in the state its last attempt left |
| Dispatcher.Push | background.js:108 | the request joins the back of the queue and nothing else changes |
| Dispatcher.ProcessQueue | background.js:112-186 | nothing happens while busy or with an empty queue; otherwise the head request is shifted off and answered on its own channel with the cycle's response, the worker keeps the state the cycle left, and it is idle again |
| Dispatcher.Serve | background.js:184-185 | back-to-back cycles answer as many of the requests as there are cycles, in order, each on its own channel |
| Dispatcher.ServeAnswers | background.js:112-185 | the `i`-th reply is what the `i`-th request's cycle answers on the state the earlier cycles left |
| Dispatcher.ServeEnds | background.js:112-185 | the worker ends in the state left by serving, one after another, as many requests as were answered |
| Dispatcher.Drain | background.js:184-185 | back-to-back cycles answer the queue's head requests in queue order, as many as there are cycles, each with what its cycle answers on the state the earlier cycles left; the rest stay queued and the worker keeps the last cycle's state |
| Dispatcher.HandleTranslationRequest | background.js:107-110 | while busy the request is only enqueued; when idle the waiting requests and then the new one are served back to back, each answered on its own channel with what its cycle answers on the state the earlier cycles left, the rest stay queued, and the worker keeps the last cycle's state |
| Dispatcher.Arrivals | background.js:107-110 | requests arriving during a cycle are appended in arrival order and the worker stays busy |
| Dispatcher.FifoOrder | background.js:107-126 | requests are answered in arrival order: those waiting first, then those that arrived during the running cycle |
| Dispatcher.BusyWorkerOnlyEnqueues | background.js:113 | a request arriving during a cycle gets no reply yet and is queued behind the waiting ones |
| Dispatcher.EmptyResultStopsButFails | background.js:168-181 | an engine returning an empty text at any slot ends the loop there, yet the caller gets a failure carrying the error of the last earlier slot that failed, or the generic message |
| Dispatcher.LastErrorOfPrefix | background.js:130-175 | a return after `n` outcomes leaves `lastError` as those `n` outcomes set it |
| Dispatcher.EmptyFirstResultFails | background.js:165-181 | an empty text from the first slot ends the loop, and the caller gets the generic message |
| Dispatcher.FallsBackToGtx | background.js:132-181 | with Official first but keyless and Local second but throwing, the loop reaches GTX on the state the resets and prune left; the caller gets GTX's text, or GTX's skip reason or error, or Local's message when GTX returned nothing |
| Dispatcher.FallbackTrace | background.js:132-171 | with Official first but keyless and Local second but throwing, the loop records Official's no-key skip and Local's error and reaches GTX on the state the resets and prune left |
| Dispatcher.UnknownEnginesFail | background.js:136-139 | with no recognised engine in any slot, every slot is skipped, nothing is charged, and the reply is "Unknown Engine" |
| Dispatcher.GtxSpacing | background.js:144-150 | two GTX attempts are at least one minimum interval apart when the timer fires no earlier than asked |
| Dispatcher.LoopCountsGtx | background.js:156-160 | the priority loop adds one to the stored GTX count exactly when it ends on a GTX return, and never moves the GTX reset day |
| Dispatcher.CycleCountsGtx | background.js:117-160 | a cycle on the day already stamped adds one to the GTX count exactly when it ends on a GTX return |
| Dispatcher.ServedCountsGtx | background.js:112-185 | within one day, the GTX count after serving `n` requests is the count before plus the GTX successes among them |
| Dispatcher.CapSkipsGtx | background.js:133-139 | once the GTX count has reached the daily limit every GTX slot of the loop is skipped with the daily reason |
| Dispatcher.GtxDailyCapAcrossRequests | background.js:112-191 | within one day, once earlier GTX successes bring the count to the daily limit, the next request's cycle skips every GTX slot with the daily reason |
| Dispatcher.LoopWithinLimits | background.js:132-176 | however the slots repeat engines, the loop raises no counter past its limit and grows the hourly window no further than 99 |
| Dispatcher.CycleRespectsLimits | background.js:117-176 | counters and window that start a cycle within their limits end it within them |
| Content.IgnoredUsers | content.js:35-45 | a falsy setting gives the empty set; otherwise a name is in the set exactly when it is the non-empty trimmed lower-case form of some comma-separated entry; every member is such a normal name |
| Content.IgnoredUsersOfJoin | content.js:35-45 | normal names joined by commas are read back as exactly that set of names |
| Content.ExtractUsername | content.js:188-196 | no username element gives `null`; otherwise the text, trimmed and lower-cased |
| Content.IsUserIgnored | content.js:198-201 | a user is ignored exactly when the name is non-empty and in the set |
| Content.ListedAuthorIgnored | content.js:35-45 | an author listed in the setting is ignored however the entry and the displayed name differ in case or surrounding whitespace |
| Content.NonAsciiUnits | content.js:166 | counts code units above U+007F: at most the UTF-16 length, and zero exactly when the text is all ASCII |
| Content.NonAsciiUnitsOfChar | content.js:166 | a non-ASCII character counts as its UTF-16 code units, two outside the Basic Multilingual Plane, and an ASCII one as none |
| Content.NonAsciiUnitsAppend | content.js:226-229 | the count over concatenated fragments is the sum of the counts |
| Content.ShouldTranslate | content.js:158-169 | disabled or empty text is never sent; otherwise text is sent exactly when it has at least two non-ASCII code units |
| Content.AsciiNeverTranslated | content.js:163 | pure ASCII text is never sent, whatever its length |
| Content.CodeUnitCounting | content.js:155-168 | one accented letter is not enough, but one emoji outside the Basic Multilingual Plane is (two code units), as are two kana |
| Content.FragmentsCountTogether | content.js:226-231 | two fragments with one non-ASCII unit each pass together though neither passes alone |
| Content.ProcessMessageNode | content.js:204-231 | a hidden page leaves the line untouched; a visible page marks it; a request is sent exactly for an unmarked line by a non-ignored author whose non-empty fragments, concatenated in order, pass the gate, and it carries that text |
| Content.AtMostOneRequest | content.js:206-212 | however often the observer meets a line, at most one request is sent for it, and none for a line already marked |
| Content.HiddenDefers | content.js:206 | a line met first while the page is hidden is processed as new once the page is visible |
| Content.Parenthesised | content.js:175 | the appended text is the inner text wrapped as " (…)" |
| Content.Render | content.js:234-273 | the failure style is used exactly when no successful response arrived; the translation, the error, "Translation Failed" or "Extension Error" is shown parenthesised |
| Content.DispatcherRepliesShownVerbatim | content.js:241-246 | every reply the worker sends is shown as sent: translations are non-empty, and failures carry a non-empty reason that the fallback never masks |
| Popup.IntOr | popup.js:62-65 | `parseInt` with a fallback for falsy results keeps every non-zero integer read, negative ones included, and otherwise uses the fallback; the result is never 0 when the fallback is not |
| Popup.SaveOptions | popup.js:58-117 | rejected with "Invalid API Key format." exactly when the trimmed key is non-empty and shorter than 20 code units; otherwise each limit is the field's non-zero integer or its default (1000, 50000, 500000, 12), so never 0; the key is empty or long enough; the key and local fields are trimmed; and everything else is written as entered |
| Popup.RestoreOptions | popup.js:28-50 | the form shows every stored setting: switch, colour, key, priorities, local fields and ignore list as stored, and numeric fields that `parseInt` reads back as the stored numbers |
| Popup.ReadsBack | popup.js:33-36 | a number shown in a form field is read back by `parseInt` as that number |
| Popup.IntOrOfIntToString | popup.js:33-36 | a non-zero safe integer shown in the form passes the fallback of the save unchanged |
| Popup.IntOrExamples | popup.js:62-65 | "0" and "" fall back to the default, "-5" passes through, "250" reads as 250 |
| Popup.ResaveIsStable | popup.js:28-117 | opening the page and saving without edits writes back exactly what was stored, whenever the stored limits are safe integers |
| Popup.Remaining | popup.js:144 | the remaining count is zero exactly when usage has reached the limit, and otherwise usage plus remaining is the limit |
| Popup.Percentage | popup.js:125 | `NaN` exactly for 0/0; never above 100; for a positive limit, at least 100 exactly when the limit is reached and above 80 exactly when usage exceeds four fifths of it; at most 0 for a negative limit; 100 for usage over a zero limit; below a positive limit, and at any negative one, the value is usage times 100 over the limit, and it is exactly 100 once a positive limit is reached |
| Popup.BarColour | popup.js:147-157 | red exactly at 100 % or more, orange exactly above 80 % and below 100 %, the bar's base colour otherwise (including `NaN`) |
| Popup.BaseColour | popup.js:152-156 | no bar's base colour is red or orange |
| Popup.ColourByUsage | popup.js:147-157 | for a positive limit the colour follows usage alone: red once the limit is reached, orange above four fifths of it, the base colour at or below |
| Popup.NegativeLimitLooksIdle | popup.js:137-157 | a negative limit, which saving lets through, gives the bar its base colour and nothing remaining; the percentage written as its width is 0 without usage and negative with some |

## Left out

- Storage I/O, the `chrome.storage.onChanged` listeners, `chrome.runtime` messaging and the network. A `Store` value, `Dispatcher.Cycle`/`Dispatcher.Slot` inputs and reply datatypes stand in for them.
- JSON decoding and request construction (`JSON.stringify`, `encodeURIComponent`, the URLs). Each adapter receives the decoded body or the syntax error.
- Time zones and date formatting (`toDateString`, `toLocaleString` with `America/Los_Angeles`, `toISOString`). The day, billing-period and instant keys are opaque strings supplied by the cycle.
- Concurrency. `processQueue` awaits between steps, but the model runs one cycle atomically. Requests arriving mid-cycle are modelled by `Dispatcher.Arrivals` against a busy worker.
- Settings changes mid-cycle. A cycle reads one `Config` throughout.
- The settings load of the background worker at startup, which ignores falsy stored values (an empty local URL keeps the default), and the `chrome.action.onClicked` toggle. Neither is part of the dispatch path.
- The DOM. This covers the `MutationObserver` setup, the selectors, the inline settings panel of the chat page, and the colour update of existing translations. A chat line is reduced to its mark, its author name and its fragment texts.
- Number-input sanitisation by the browser, and the thousands separators of `toLocaleString` in the bar labels.
- The `console` logging.
- JsString.ToLower: lower-cases ASCII letters only, because the extension compares user names, and full Unicode case mapping is not modelled.
- JsString.Length: lone surrogates are not representable, because Dafny's `char` is a Unicode scalar value. Every character counts as one or two code units.
- RateLimit.MinRequestInterval: exact real division rather than an IEEE double. The timer's truncation of a fractional delay to whole milliseconds is also not modelled; `Dispatcher.GtxSpacing` assumes the timer fires no earlier than the exact delay.
- Adapters.FetchTranslationLocal: a missing and a `null` content are both `None` and throw the "of undefined" message. For `null`, V8's message says "of null".
- Popup.Percentage: exact real arithmetic rather than IEEE doubles, with `NaN` as `None`.
- Popup.NegativeLimitLooksIdle: the bar's CSS width is not modelled. A negative percentage such as "-50%" is an invalid width that the browser ignores, so the bar keeps whatever width it had.
- Adapters.FetchTranslationGtx: the body nodes are strings, arrays and `null` only. Numbers and objects inside the GTX array are not modelled. For a string segment, `item[0]` in JavaScript is its first UTF-16 code unit, but `Adapters.Head` takes the first character, so a segment that starts outside the Basic Multilingual Plane gives the whole character rather than a lone high surrogate.
- JsString.ParseInt: exact integers rather than doubles. JavaScript's `parseInt` rounds beyond 2^53, so `JsString.ParseIntOfIntToString` holds for every integer of the model but only for safe integers in JavaScript.
- JsString.IntToString: plain decimal digits for every integer. `String(n)` switches to exponent form from 1e21 on, and beyond 2^53 shows the double nearest to the integer.
- Popup.IntOrOfIntToString: promised for safe integers only (`JsString.IsSafeInteger`), because only those survive the trip through a double.
- Popup.ResaveIsStable: promised only when the stored limits are safe integers (`Popup.SafeLimits`). A stored limit of 2^53 or more may not be written back as it was.

=== FILE: adapters.dfy ===
/** The three engine adapters as pure functions from the HTTP exchange to the
    translated text or the message of the error they throw. The network, JSON
    decoding and request construction stay outside: each adapter receives the
    reply it would have awaited. */
module Adapters {
  import opened Common
  import opened JsString

  /** A decoded JSON body, or the message of the `SyntaxError` decoding threw. */
  datatype Body<T> = Parsed(value: T) | Malformed(message: string)

  /** The outcome of `fetch`: a transport exception, or a response whose body
      is read as text (`text`) or as JSON (`json`) depending on the path taken. */
  datatype HttpReply<T> =
    | Thrown(message: string)
    | Response(ok: bool, status: nat, text: string, json: Body<T>)

  /** Messages of the `TypeError`s the adapters raise on missing fields. */
  const NullItemError := "Cannot read properties of null (reading '0')"
  const MissingTextError := "Cannot read properties of undefined (reading 'replace')"
  const MissingContentError := "Cannot read properties of undefined (reading 'trim')"

  // ================================================================ GTX

  /** The free endpoint's nested-array body: strings, arrays and `null`
      (numbers and objects are not modelled). */
  datatype GtxNode = Text(s: string) | Node(items: seq<GtxNode>) | Null

  const InvalidGtxFormat := "Invalid response format"

  /** How `Array.prototype.join` renders an element: `null` as the empty
      string, a string as itself, an array as its elements joined by commas. */
  function Render(n: GtxNode): string
    decreases n
  {
    match n
    case Null => ""
    case Text(s) => s
    case Node(xs) => Join(seq(|xs|, i requires 0 <= i < |xs| => Render(xs[i])), ',')
  }

  /** `item[0]` rendered for the join; reading index 0 of `null` throws. */
  function Head(item: GtxNode): (r: Result<string>)
    ensures r.Err? <==> item.Null?
    // a string segment gives its first character, or nothing when empty
    ensures item.Text? ==> r.Ok? && r.value <= item.s && |r.value| == (if item.s == [] then 0 else 1)
    // an array segment gives its first element as the join renders it:
    // nothing for an empty array or a `null`, a string as itself
    ensures item.Node? && (item.items == [] || item.items[0].Null?) ==> r == Ok("")
    ensures item.Node? && item.items != [] && item.items[0].Text? ==> r == Ok(item.items[0].s)
  {
    match item
    case Null => Err(NullItemError)
    case Text(s) => Ok(if s == [] then "" else [s[0]])
    case Node(xs) => Ok(if xs == [] then "" else Render(xs[0]))
  }

  /** `items.map(item => item[0]).join('')`. */
  function JoinHeads(items: seq<GtxNode>): (r: Result<string>)
    ensures r.Err? <==> exists i :: 0 <= i < |items| && items[i].Null?
    ensures r.Err? ==> r.message == NullItemError
  {
    if items == [] then Ok("")
    else
      match (Head(items[0]), JoinHeads(items[1..]))
      case (Err(m), _) => Err(m)
      case (Ok(_), Err(m)) =>
        assert items[1..][0] == items[1];
        Err(m)
      case (Ok(h), Ok(t)) =>
        assert forall i :: 1 <= i < |items| ==> items[i] == items[1..][i - 1];
        Ok(h + t)
  }

  /** The parse of a GTX body: an array whose first element is an array. */
  function ParseGtx(data: GtxNode): (r: Result<string>)
    ensures !(data.Node? && |data.items| > 0 && data.items[0].Node?) ==> r == Err(InvalidGtxFormat)
    ensures data.Node? && |data.items| > 0 && data.items[0].Node? ==> r == JoinHeads(data.items[0].items)
  {
    if data.Node? && |data.items| > 0 && data.items[0].Node? then JoinHeads(data.items[0].items)
    else Err(InvalidGtxFormat)
  }

  /** `fetchTranslationGTX`: a non-ok status fails before the body is read. */
  function FetchTranslationGtx(reply: HttpReply<GtxNode>): (r: Result<string>)
    ensures reply.Thrown? ==> r == Err(reply.message)
    ensures reply.Response? && !reply.ok ==> r == Err("HTTP error! status: " + NatToString(reply.status))
    ensures reply.Response? && reply.ok && reply.json.Malformed? ==> r == Err(reply.json.message)
    ensures reply.Response? && reply.ok && reply.json.Parsed? ==> r == ParseGtx(reply.json.value)
  {
    match reply
    case Thrown(m) => Err(m)
    case Response(ok, status, _, json) =>
      if !ok then Err("HTTP error! status: " + NatToString(status))
      else
        match json
        case Malformed(m) => Err(m)
        case Parsed(data) => ParseGtx(data)
  }

  /** The heads of segments none of which is `null`: `items.map(item => item[0])`. */
  function Heads(items: seq<GtxNode>): (r: seq<string>)
    requires forall i :: 0 <= i < |items| ==> !items[i].Null?
    ensures |r| == |items|
  {
    seq(|items|, i requires 0 <= i < |items| && !items[i].Null? => Head(items[i]).value)
  }

  /** Without a `null` segment the join succeeds with the heads one after
      another: `JoinHeads` is the map followed by `join('')`. */
  lemma {:induction false} JoinHeadsOk(items: seq<GtxNode>)
    requires forall i :: 0 <= i < |items| ==> !items[i].Null?
    ensures JoinHeads(items) == Ok(Concat(Heads(items)))
  {
    if items != [] {
      JoinHeadsOk(items[1..]);
      assert Heads(items)[1..] == Heads(items[1..]);
    }
  }

  /** One translated segment: the translated text first, then whatever the
      endpoint sends after it (the original, transliterations, `null`s,
      nested arrays). */
  function Segment(translated: string, tail: seq<GtxNode>): GtxNode {
    Node([Text(translated)] + tail)
  }

  function Segments(translated: seq<string>, tails: seq<seq<GtxNode>>): (r: seq<GtxNode>)
    requires |translated| == |tails|
    ensures |r| == |translated|
    ensures forall i :: 0 <= i < |r| ==> r[i] == Segment(translated[i], tails[i])
  {
    seq(|translated|, i requires 0 <= i < |translated| => Segment(translated[i], tails[i]))
  }

  /** A well-formed body `[[[t1, ...], [t2, ...], ...], ...]` parses to
      `t1 + t2 + ...`: the translated texts in order, everything after them
      in each segment dropped. */
  lemma {:induction false} ParseGtxSegments(translated: seq<string>, tails: seq<seq<GtxNode>>, rest: seq<GtxNode>)
    requires |translated| == |tails|
    ensures ParseGtx(Node([Node(Segments(translated, tails))] + rest)) == Ok(Concat(translated))
  {
    JoinHeadsSegments(translated, tails);
  }

  lemma {:induction false} JoinHeadsSegments(translated: seq<string>, tails: seq<seq<GtxNode>>)
    requires |translated| == |tails|
    ensures JoinHeads(Segments(translated, tails)) == Ok(Concat(translated))
  {
    if translated != [] {
      var items := Segments(translated, tails);
      assert items[1..] == Segments(translated[1..], tails[1..]);
      assert ([Text(translated[0])] + tails[0])[0] == Text(translated[0]);
      JoinHeadsSegments(translated[1..], tails[1..]);
    }
  }

  // ================================================================ Official

  /** The five entities the Official adapter decodes, in the order of the
      passes, and the character each stands for. */
  const Entities: seq<string> := ["&quot;", "&#39;", "&amp;", "&lt;", "&gt;"]
  const EntityChars: seq<char> := ['"', '\'', '&', '<', '>']

  /** `s.replace(/pat/g, rep)`: every non-overlapping occurrence of `pat`,
      scanning left to right; replaced text is not scanned again. */
  function ReplaceAll(s: string, pat: string, rep: string): string
    requires |pat| > 0
    decreases |s|
  {
    if s == [] then []
    else if pat <= s then rep + ReplaceAll(s[|pat|..], pat, rep)
    else [s[0]] + ReplaceAll(s[1..], pat, rep)
  }

  /** One decoding pass: the `k`-th entity replaced by its character. */
  function DecodePass(s: string, k: nat): string
    requires k < 5
  {
    ReplaceAll(s, Entities[k], [EntityChars[k]])
  }

  /** The Official adapter's HTML-entity decoding: five global replacements run
      one after another, so text produced by an earlier pass is seen by the
      later ones. */
  function DecodeEntities(s: string): (r: string)
    // decoding only ever shortens text
    ensures |r| <= |s|
  {
    var s1 := DecodePass(s, 0);
    var s2 := DecodePass(s1, 1);
    var s3 := DecodePass(s2, 2);
    var s4 := DecodePass(s3, 3);
    PassShortens(s, 0);
    PassShortens(s1, 1);
    PassShortens(s2, 2);
    PassShortens(s3, 3);
    PassShortens(s4, 4);
    DecodePass(s4, 4)
  }

  // ---------------------------------------------------------------- how a pass treats its input

  /** Text in which the pattern cannot start is left as it is. */
  lemma {:induction false} ReplaceAllAbsent(s: string, pat: string, rep: string)
    requires |pat| > 0 && pat[0] !in s
    ensures ReplaceAll(s, pat, rep) == s
    decreases |s|
  {
    if s != [] {
      assert s[0] != pat[0];
      ReplaceAllAbsent(s[1..], pat, rep);
      assert [s[0]] + s[1..] == s;
    }
  }

  /** A replacement no longer than its pattern never lengthens the text. */
  lemma {:induction false} ReplaceAllShortens(s: string, pat: string, rep: string)
    requires |pat| > 0 && |rep| <= |pat|
    ensures |ReplaceAll(s, pat, rep)| <= |s|
    decreases |s|
  {
    if s != [] {
      if pat <= s {
        ReplaceAllShortens(s[|pat|..], pat, rep);
      } else {
        ReplaceAllShortens(s[1..], pat, rep);
      }
    }
  }

  /** A decoding pass only shortens. */
  lemma PassShortens(s: string, k: nat)
    requires k < 5
    ensures |DecodePass(s, k)| <= |s|
  {
    ReplaceAllShortens(s, Entities[k], [EntityChars[k]]);
  }

  /** Text without `&` holds no entity, and decoding leaves it as it is. */
  lemma DecodeLeavesPlainText(s: string)
    requires '&' !in s
    ensures DecodeEntities(s) == s
  {
    forall k | 0 <= k < 5 ensures DecodePass(s, k) == s {
      assert Entities[k][0] == '&';
      ReplaceAllAbsent(s, Entities[k], [EntityChars[k]]);
    }
  }

  /** An occurrence at the front is replaced and scanning resumes after it. */
  lemma ReplaceAllHit(rest: string, pat: string, rep: string)
    requires |pat| > 0
    ensures ReplaceAll(pat + rest, pat, rep) == rep + ReplaceAll(rest, pat, rep)
  {
    assert (pat + rest)[|pat|..] == rest;
  }

  /** A piece in which no occurrence of the entity `pat` can start: each `&`
      is followed, inside the piece, by a character other than the entity's
      second one. */
  predicate Inert(p: string, pat: string)
    requires |pat| >= 2
  {
    forall i :: 0 <= i < |p| && p[i] == '&' ==> i + 1 < |p| && p[i + 1] != pat[1]
  }

  /** The entity itself is not inert for its own pass. */
  lemma OccurrenceNotInert(pat: string)
    requires |pat| >= 2 && pat[0] == '&'
    ensures !Inert(pat, pat)
  {
    var i := 0;
    assert pat[i] == '&' && !(i + 1 < |pat| && pat[i + 1] != pat[1]);
  }

  /** A pass copies an inert piece unchanged, whatever follows it. */
  lemma {:induction false} ReplaceAllKeeps(p: string, rest: string, pat: string, rep: string)
    requires |pat| >= 2 && pat[0] == '&' && Inert(p, pat)
    ensures ReplaceAll(p + rest, pat, rep) == p + ReplaceAll(rest, pat, rep)
  {
    if p == [] {
      assert p + rest == rest;
    } else {
      var s := p + rest;
      assert s[1..] == p[1..] + rest;
      assert !(pat <= s) by {
        if p[0] == '&' { assert s[1] == p[1] != pat[1]; }
      }
      assert Inert(p[1..], pat) by {
        forall i | 0 <= i < |p[1..]| && p[1..][i] == '&'
          ensures i + 1 < |p[1..]| && p[1..][i + 1] != pat[1]
        {
          assert p[i + 1] == '&';
        }
      }
      ReplaceAllKeeps(p[1..], rest, pat, rep);
      assert [p[0]] + p[1..] == p;
    }
  }

  /** Each piece replaced by `rep` when it is the pattern, kept otherwise. */
  function Substitute(pieces: seq<string>, pat: string, rep: string): (r: seq<string>)
    ensures |r| == |pieces|
    ensures forall i :: 0 <= i < |r| ==> r[i] == if pieces[i] == pat then rep else pieces[i]
  {
    seq(|pieces|, i requires 0 <= i < |pieces| => if pieces[i] == pat then rep else pieces[i])
  }

  /** A pass over text cut into occurrences and inert pieces replaces exactly
      the occurrences. */
  lemma {:induction false} ReplaceAllPieces(pieces: seq<string>, pat: string, rep: string)
    requires |pat| >= 2 && pat[0] == '&'
    requires forall i :: 0 <= i < |pieces| ==> pieces[i] == pat || Inert(pieces[i], pat)
    ensures ReplaceAll(Concat(pieces), pat, rep) == Concat(Substitute(pieces, pat, rep))
  {
    if pieces != [] {
      var rest := Concat(pieces[1..]);
      ReplaceAllPieces(pieces[1..], pat, rep);
      assert Substitute(pieces, pat, rep)[1..] == Substitute(pieces[1..], pat, rep);
      if pieces[0] == pat {
        ReplaceAllHit(rest, pat, rep);
      } else {
        ReplaceAllKeeps(pieces[0], rest, pat, rep);
      }
    }
  }

  // ---------------------------------------------------------------- escaping undone

  /** The position of a character among the five the decoder produces; 5 for
      any other character. */
  function EntityIndex(c: char): (j: nat)
    ensures j <= 5
    ensures j < 5 ==> EntityChars[j] == c
    ensures j == 5 <==> c !in EntityChars
  {
    if c == '"' then 0 else if c == '\'' then 1 else if c == '&' then 2
    else if c == '<' then 3 else if c == '>' then 4 else 5
  }

  /** How character `c` reads once passes `0..k-1` have run over its escaped
      form: still an entity if its pass is yet to come, the character itself
      otherwise. */
  function Token(c: char, k: nat): string {
    var j := EntityIndex(c);
    if j < 5 && k <= j then Entities[j] else [c]
  }

  function Tokens(s: string, k: nat): (r: seq<string>)
    ensures |r| == |s|
    ensures forall i :: 0 <= i < |s| ==> r[i] == Token(s[i], k)
  {
    seq(|s|, i requires 0 <= i < |s| => Token(s[i], k))
  }

  /** HTML escaping of the five characters the decoder knows, each replaced by
      its entity. */
  function Escape(s: string): string {
    Concat(Tokens(s, 0))
  }

  /** Each entity is inert for every other entity's pass: their second
      characters differ and none has an `&` after the first. */
  lemma EntitiesApart(j: nat, k: nat)
    requires j < 5 && k < 5 && j != k
    ensures Inert(Entities[j], Entities[k])
  {
    var e := Entities[j];
    forall i | 0 <= i < |e| && e[i] == '&'
      ensures i + 1 < |e| && e[i + 1] != Entities[k][1]
    {
      assert i == 0;
    }
  }

  /** Pass `k` turns the tokens still waiting for it into their characters. */
  lemma DecodeStep(s: string, k: nat)
    requires k < 5 && '&' !in s
    ensures DecodePass(Concat(Tokens(s, k)), k) == Concat(Tokens(s, k + 1))
  {
    var pat, rep := Entities[k], [EntityChars[k]];
    var p := Tokens(s, k);
    forall i | 0 <= i < |p|
      ensures p[i] == pat || Inert(p[i], pat)
      ensures (if p[i] == pat then rep else p[i]) == Token(s[i], k + 1)
    {
      var j := EntityIndex(s[i]);
      if j < 5 && k <= j {
        if j != k {
          EntitiesApart(j, k);
        }
      } else {
        assert s[i] != '&';
        assert |p[i]| == 1 < |pat|;
      }
    }
    assert Substitute(p, pat, rep) == Tokens(s, k + 1);
    ReplaceAllPieces(p, pat, rep);
  }

  /** Once every pass has run, each character stands for itself. */
  lemma {:induction false} ConcatPlain(s: string)
    ensures Concat(Tokens(s, 5)) == s
  {
    if s != [] {
      ConcatPlain(s[1..]);
      assert Tokens(s, 5)[1..] == Tokens(s[1..], 5);
      assert [s[0]] + s[1..] == s;
    }
  }

  /** Decoding undoes the escaping of any text without an `&`. */
  lemma EscapeRoundTrip(s: string)
    requires '&' !in s
    ensures DecodeEntities(Escape(s)) == s
  {
    StagesDecode(s, 0);
    DecodeFromStart(Escape(s));
  }

  /** The passes from the `k`-th on. */
  function DecodeFrom(t: string, k: nat): string
    requires k <= 5
    decreases 5 - k
  {
    if k == 5 then t else DecodeFrom(DecodePass(t, k), k + 1)
  }

  lemma DecodeFromStart(t: string)
    ensures DecodeEntities(t) == DecodeFrom(t, 0)
  {
    var t1 := DecodePass(t, 0);
    var t2 := DecodePass(t1, 1);
    var t3 := DecodePass(t2, 2);
    var t4 := DecodePass(t3, 3);
    assert DecodeFrom(t4, 4) == DecodePass(t4, 4);
    assert DecodeFrom(t2, 2) == DecodeFrom(t3, 3);
  }

  /** The passes from the `k`-th on finish decoding the text as it stands
      after the passes before `k`. */
  lemma {:induction false} StagesDecode(s: string, k: nat)
    requires '&' !in s && k <= 5
    ensures DecodeFrom(Concat(Tokens(s, k)), k) == s
    decreases 5 - k
  {
    if k == 5 {
      ConcatPlain(s);
    } else {
      DecodeStep(s, k);
      StagesDecode(s, k + 1);
    }
  }

  /** With an `&` the round trip can fail: the escaped `&lt;` comes back as `<`. */
  lemma EscapedAmpersandDecodesTwice()
    ensures Escape("&lt;") == "&amp;lt;"
    ensures DecodeEntities(Escape("&lt;")) == "<"
  {
    assert Tokens("&lt;", 0) == ["&amp;", "l", "t", ";"];
    assert Concat(["&amp;", "l", "t", ";"]) == "&amp;lt;";
    DecodeDoubleLt();
  }

  // ---------------------------------------------------------------- reference decodings
  //
  // Each reference decoding is proved pass by pass. For every pass the text is
  // cut into the pass's occurrences and pieces where none can start, and
  // `ReplaceAllPieces` (through `PassOver`) replaces exactly the occurrences;
  // `DecodeChain` then strings the five pass results together. The literal
  // steps of one example live in small lemmas of their own (`Mixed*`,
  // `DoubleLt*`, `DoubleQuot*`) because the solver handles only a few
  // equalities between string literals at a time.

  /** The three reference decodings: the ordinary case, the double unescape of
      `&amp;lt;` (the `&amp;` pass exposes an `&lt;` for the next pass), and
      `&amp;quot;`, which keeps one level because `&quot;` was decoded first. */
  lemma DecodeExamples()
    ensures DecodeEntities("5 &lt;tags&gt; &amp; &quot;quotes&quot;") == "5 <tags> & \"quotes\""
    ensures DecodeEntities("&amp;lt;") == "<"
    ensures DecodeEntities("&amp;quot;") == "&quot;"
  {
    DecodeMixed();
    DecodeDoubleLt();
    DecodeDoubleQuot();
  }

  /** One pass of the decoder over text given as inert pieces and occurrences. */
  lemma PassOver(pieces: seq<string>, k: nat, pat: string, rep: string, expected: seq<string>)
    requires k < 5 && pat == Entities[k] && rep == [EntityChars[k]]
    requires forall i :: 0 <= i < |pieces| ==> pieces[i] == pat || Inert(pieces[i], pat)
    requires Substitute(pieces, pat, rep) == expected
    ensures DecodePass(Concat(pieces), k) == Concat(expected)
  {
    ReplaceAllPieces(pieces, pat, rep);
  }

  lemma DecodeMixed()
    ensures DecodeEntities("5 &lt;tags&gt; &amp; &quot;quotes&quot;") == "5 <tags> & \"quotes\""
  {
    MixedPass0();
    MixedPass1();
    MixedPass2();
    MixedPass3();
    MixedPass4();
    DecodeChain("5 &lt;tags&gt; &amp; &quot;quotes&quot;", "5 &lt;tags&gt; &amp; \"quotes\"",
                "5 &lt;tags&gt; &amp; \"quotes\"", "5 &lt;tags&gt; & \"quotes\"",
                "5 <tags&gt; & \"quotes\"", "5 <tags> & \"quotes\"");
  }

  lemma MixedPass0()
    ensures DecodePass("5 &lt;tags&gt; &amp; &quot;quotes&quot;", 0) == "5 &lt;tags&gt; &amp; \"quotes\""
  {
    MixedText0();
    PassOver(["5 &lt;tags&gt; &amp; ", "&quot;", "quotes", "&quot;"], 0, "&quot;", "\"",
             ["5 &lt;tags&gt; &amp; ", "\"", "quotes", "\""]);
  }

  lemma MixedText0()
    ensures Concat(["5 &lt;tags&gt; &amp; ", "&quot;", "quotes", "&quot;"]) == "5 &lt;tags&gt; &amp; &quot;quotes&quot;"
    ensures Concat(["5 &lt;tags&gt; &amp; ", "\"", "quotes", "\""]) == "5 &lt;tags&gt; &amp; \"quotes\""
  {
    ConcatFour("5 &lt;tags&gt; &amp; ", "&quot;", "quotes", "&quot;");
    ConcatFour("5 &lt;tags&gt; &amp; ", "\"", "quotes", "\"");
    assert "5 &lt;tags&gt; &amp; " + ("&quot;" + ("quotes" + "&quot;")) == "5 &lt;tags&gt; &amp; &quot;quotes&quot;";
    assert "5 &lt;tags&gt; &amp; " + ("\"" + ("quotes" + "\"")) == "5 &lt;tags&gt; &amp; \"quotes\"";
  }

  lemma MixedPass1()
    ensures DecodePass("5 &lt;tags&gt; &amp; \"quotes\"", 1) == "5 &lt;tags&gt; &amp; \"quotes\""
  {
    MixedText1();
    PassOver(["5 &lt;tags&gt; &amp; \"quotes\""], 1, "&#39;", "'",
             ["5 &lt;tags&gt; &amp; \"quotes\""]);
  }

  lemma MixedText1()
    ensures Concat(["5 &lt;tags&gt; &amp; \"quotes\""]) == "5 &lt;tags&gt; &amp; \"quotes\""
  {
  }

  lemma MixedPass2()
    ensures DecodePass("5 &lt;tags&gt; &amp; \"quotes\"", 2) == "5 &lt;tags&gt; & \"quotes\""
  {
    MixedText2();
    PassOver(["5 &lt;tags&gt; ", "&amp;", " \"quotes\""], 2, "&amp;", "&",
             ["5 &lt;tags&gt; ", "&", " \"quotes\""]);
  }

  lemma MixedText2()
    ensures Concat(["5 &lt;tags&gt; ", "&amp;", " \"quotes\""]) == "5 &lt;tags&gt; &amp; \"quotes\""
    ensures Concat(["5 &lt;tags&gt; ", "&", " \"quotes\""]) == "5 &lt;tags&gt; & \"quotes\""
  {
    ConcatThree("5 &lt;tags&gt; ", "&amp;", " \"quotes\"");
    ConcatThree("5 &lt;tags&gt; ", "&", " \"quotes\"");
    assert "5 &lt;tags&gt; " + ("&amp;" + " \"quotes\"") == "5 &lt;tags&gt; &amp; \"quotes\"";
    assert "5 &lt;tags&gt; " + ("&" + " \"quotes\"") == "5 &lt;tags&gt; & \"quotes\"";
  }

  lemma MixedPass3()
    ensures DecodePass("5 &lt;tags&gt; & \"quotes\"", 3) == "5 <tags&gt; & \"quotes\""
  {
    MixedText3();
    PassOver(["5 ", "&lt;", "tags&gt; & \"quotes\""], 3, "&lt;", "<",
             ["5 ", "<", "tags&gt; & \"quotes\""]);
  }

  lemma MixedText3()
    ensures Concat(["5 ", "&lt;", "tags&gt; & \"quotes\""]) == "5 &lt;tags&gt; & \"quotes\""
    ensures Concat(["5 ", "<", "tags&gt; & \"quotes\""]) == "5 <tags&gt; & \"quotes\""
  {
    ConcatThree("5 ", "&lt;", "tags&gt; & \"quotes\"");
    ConcatThree("5 ", "<", "tags&gt; & \"quotes\"");
    assert "5 " + ("&lt;" + "tags&gt; & \"quotes\"") == "5 &lt;tags&gt; & \"quotes\"";
    assert "5 " + ("<" + "tags&gt; & \"quotes\"") == "5 <tags&gt; & \"quotes\"";
  }

  /** Three pieces concatenated in order. */
  lemma ConcatThree(a: string, b: string, c: string)
    ensures Concat([a, b, c]) == a + (b + c)
  {
    assert [a, b, c][1..] == [b, c];
    assert [b, c][1..] == [c];
    assert Concat([c]) == c;
  }

  /** Four pieces concatenated in order. */
  lemma ConcatFour(a: string, b: string, c: string, d: string)
    ensures Concat([a, b, c, d]) == a + (b + (c + d))
  {
    assert [a, b, c, d][1..] == [b, c, d];
    ConcatThree(b, c, d);
  }

  lemma MixedPass4()
    ensures DecodePass("5 <tags&gt; & \"quotes\"", 4) == "5 <tags> & \"quotes\""
  {
    MixedText4();
    PassOver(["5 <tags", "&gt;", " & \"quotes\""], 4, "&gt;", ">",
             ["5 <tags", ">", " & \"quotes\""]);
  }

  lemma MixedText4()
    ensures Concat(["5 <tags", "&gt;", " & \"quotes\""]) == "5 <tags&gt; & \"quotes\""
    ensures Concat(["5 <tags", ">", " & \"quotes\""]) == "5 <tags> & \"quotes\""
  {
    ConcatThree("5 <tags", "&gt;", " & \"quotes\"");
    ConcatThree("5 <tags", ">", " & \"quotes\"");
    assert "5 <tags" + ("&gt;" + " & \"quotes\"") == "5 <tags&gt; & \"quotes\"";
    assert "5 <tags" + (">" + " & \"quotes\"") == "5 <tags> & \"quotes\"";
  }

  lemma DecodeDoubleLt()
    ensures DecodeEntities("&amp;lt;") == "<"
  {
    DoubleLtEarly();
    DoubleLtPass2();
    DoubleLtLate();
    DecodeChain("&amp;lt;", "&amp;lt;", "&amp;lt;", "&lt;", "<", "<");
  }

  lemma DoubleLtEarly()
    ensures DecodePass("&amp;lt;", 0) == "&amp;lt;"
    ensures DecodePass("&amp;lt;", 1) == "&amp;lt;"
  {
    UntouchedPass("&amp;lt;", 0);
    UntouchedPass("&amp;lt;", 1);
  }

  lemma DoubleLtPass2()
    ensures DecodePass("&amp;lt;", 2) == "&lt;"
  {
    assert "&amp;" + "lt;" == "&amp;lt;";
    assert "&" + "lt;" == "&lt;";
    AmpersandPass("lt;");
  }

  /** The `&amp;` pass over an `&amp;` followed by text without `&`. */
  lemma AmpersandPass(tail: string)
    requires '&' !in tail
    ensures DecodePass("&amp;" + tail, 2) == "&" + tail
  {
    assert Concat(["&amp;", tail]) == "&amp;" + tail;
    assert Concat(["&", tail]) == "&" + tail;
    PassOver(["&amp;", tail], 2, "&amp;", "&", ["&", tail]);
  }

  lemma DoubleLtLate()
    ensures DecodePass("&lt;", 3) == "<"
    ensures DecodePass("<", 4) == "<"
  {
    assert Concat(["&lt;"]) == "&lt;";
    assert Concat(["<"]) == "<";
    PassOver(["&lt;"], 3, "&lt;", "<", ["<"]);
    UntouchedPass("<", 4);
  }

  lemma DecodeDoubleQuot()
    ensures DecodeEntities("&amp;quot;") == "&quot;"
  {
    DoubleQuotEarly();
    DoubleQuotPass2();
    DoubleQuotLate();
    DecodeChain("&amp;quot;", "&amp;quot;", "&amp;quot;", "&quot;", "&quot;", "&quot;");
  }

  lemma DoubleQuotEarly()
    ensures DecodePass("&amp;quot;", 0) == "&amp;quot;"
    ensures DecodePass("&amp;quot;", 1) == "&amp;quot;"
  {
    UntouchedPass("&amp;quot;", 0);
    UntouchedPass("&amp;quot;", 1);
  }

  lemma DoubleQuotPass2()
    ensures DecodePass("&amp;quot;", 2) == "&quot;"
  {
    assert Concat(["&amp;", "quot;"]) == "&amp;quot;";
    assert Concat(["&", "quot;"]) == "&quot;";
    PassOver(["&amp;", "quot;"], 2, "&amp;", "&", ["&", "quot;"]);
  }

  lemma DoubleQuotLate()
    ensures DecodePass("&quot;", 3) == "&quot;"
    ensures DecodePass("&quot;", 4) == "&quot;"
  {
    UntouchedPass("&quot;", 3);
    UntouchedPass("&quot;", 4);
  }

  /** A pass leaves text in which its entity cannot start unchanged. */
  lemma UntouchedPass(s: string, k: nat)
    requires k < 5 && Inert(s, Entities[k])
    ensures DecodePass(s, k) == s
  {
    assert Concat([s]) == s;
    OccurrenceNotInert(Entities[k]);
    assert Substitute([s], Entities[k], [EntityChars[k]]) == [s];
    ReplaceAllPieces([s], Entities[k], [EntityChars[k]]);
  }

  /** Five pass results chained into the whole decoding. */
  lemma DecodeChain(s0: string, s1: string, s2: string, s3: string, s4: string, s5: string)
    requires DecodePass(s0, 0) == s1 && DecodePass(s1, 1) == s2 && DecodePass(s2, 2) == s3
    requires DecodePass(s3, 3) == s4 && DecodePass(s4, 4) == s5
    ensures DecodeEntities(s0) == s5
  {
  }

  // ---------------------------------------------------------------- the request

  /** The fields of the Official API's JSON body the adapter reads: the
      message of an `error` object, and `data.translations` with each entry's
      `translatedText` (`None` when missing; an absent list reads as empty). */
  datatype OfficialPayload = OfficialPayload(error: Option<string>, translations: seq<Option<string>>)

  /** What the Official adapter returns or throws, and whether it charged the
      request's characters to the quota before doing so. */
  datatype OfficialOutcome = OfficialOutcome(result: Result<string>, charged: bool)

  const InvalidOfficialResponse := "Invalid Official API response"

  /** `fetchTranslationOfficial`: an error status throws the body's error
      message (or `API Error N`); a body with at least one translation is
      charged and then its first text is decoded; anything else throws. */
  function FetchTranslationOfficial(reply: HttpReply<OfficialPayload>): (o: OfficialOutcome)
    // the quota is charged exactly when a non-empty translation list arrived
    ensures o.charged <==> reply.Response? && reply.ok && reply.json.Parsed? && |reply.json.value.translations| > 0
    // success exactly when that list's first entry has a text, which comes back decoded
    ensures o.result.Ok? <==> o.charged && reply.json.value.translations[0].Some?
    ensures o.result.Ok? ==> o.result.value == DecodeEntities(reply.json.value.translations[0].value)
    ensures o.charged && reply.json.value.translations[0].None? ==> o.result == Err(MissingTextError)
    // the failures before any charge
    ensures reply.Thrown? ==> o.result == Err(reply.message)
    ensures reply.Response? && reply.json.Malformed? ==> o.result == Err(reply.json.message)
    ensures reply.Response? && !reply.ok && reply.json.Parsed? ==>
              o.result == Err(if reply.json.value.error.Some? then reply.json.value.error.value
                              else "API Error " + NatToString(reply.status))
    ensures reply.Response? && reply.ok && reply.json.Parsed? && reply.json.value.translations == [] ==>
              o.result == Err(InvalidOfficialResponse)
  {
    match reply
    case Thrown(m) => OfficialOutcome(Err(m), false)
    case Response(ok, status, _, json) =>
      match json
      case Malformed(m) => OfficialOutcome(Err(m), false)
      case Parsed(data) =>
        if !ok then
          OfficialOutcome(Err(match data.error
                              case Some(m) => m
                              case None => "API Error " + NatToString(status)), false)
        else if |data.translations| > 0 then
          match data.translations[0]
          case None => OfficialOutcome(Err(MissingTextError), true)
          case Some(t) => OfficialOutcome(Ok(DecodeEntities(t)), true)
        else OfficialOutcome(Err(InvalidOfficialResponse), false)
  }

  // ================================================================ Local

  /** `choices[i].message`: absent, or present with an optional `content`. */
  datatype LocalMessage = NoMessage | Message(content: Option<string>)

  /** The fields of an OpenAI-style chat completion the adapter reads. */
  datatype LocalPayload = LocalPayload(choices: seq<LocalMessage>)

  const InvalidLocalResponse := "Invalid Local LLM response format"

  /** `fetchTranslationLocal`: an error status throws the status and the raw
      body text; otherwise the first choice's content, trimmed. */
  function FetchTranslationLocal(reply: HttpReply<LocalPayload>): (r: Result<string>)
    ensures reply.Thrown? ==> r == Err(reply.message)
    ensures reply.Response? && !reply.ok ==>
              r == Err("Local LLM Error " + NatToString(reply.status) + ": " + reply.text)
    ensures reply.Response? && reply.ok && reply.json.Malformed? ==> r == Err(reply.json.message)
    // success exactly when the first choice carries content; the text is that content trimmed
    ensures r.Ok? <==> reply.Response? && reply.ok && reply.json.Parsed?
                       && |reply.json.value.choices| > 0
                       && reply.json.value.choices[0].Message? && reply.json.value.choices[0].content.Some?
    ensures r.Ok? ==> r.value == Trim(reply.json.value.choices[0].content.value)
    ensures r.Ok? ==> r.value == [] || (!IsWhitespace(r.value[0]) && !IsWhitespace(r.value[|r.value| - 1]))
    ensures reply.Response? && reply.ok && reply.json.Parsed? &&
            !(|reply.json.value.choices| > 0 && reply.json.value.choices[0].Message?) ==>
              r == Err(InvalidLocalResponse)
    // a message without content fails on the `trim` of `undefined`
    ensures reply.Response? && reply.ok && reply.json.Parsed? && |reply.json.value.choices| > 0 &&
            reply.json.value.choices[0] == Message(None) ==>
              r == Err(MissingContentError)
  {
    match reply
    case Thrown(m) => Err(m)
    case Response(ok, status, text, json) =>
      if !ok then Err("Local LLM Error " + NatToString(status) + ": " + text)
      else
        match json
        case Malformed(m) => Err(m)
        case Parsed(data) =>
          if |data.choices| > 0 && data.choices[0].Message? then
            match data.choices[0].content
            case None => Err(MissingContentError)
            case Some(c) => Ok(Trim(c))
          else Err(InvalidLocalResponse)
  }
}

=== FILE: availability.dfy ===
/** The background worker's configuration snapshot and the availability check
    it runs for each engine of the priority list before trying it. */
module Availability {
  import opened Common
  import opened Quota
  import RateLimit

  /** The engines a priority slot can name; any other identifier is `Unknown`. */
  datatype Engine = Gtx | Official | Local | Unknown

  function EngineOf(id: string): (e: Engine)
    ensures e == Gtx <==> id == "gtx"
    ensures e == Official <==> id == "official"
    ensures e == Local <==> id == "local"
  {
    if id == "gtx" then Gtx
    else if id == "official" then Official
    else if id == "local" then Local
    else Unknown
  }

  /** The settings the background worker keeps in memory. The limits are plain
      integers: the settings page lets negative values through. */
  datatype Config = Config(
    googleApiKey: string,
    gtxDailyLimit: int,
    officialDailyLimit: int,
    officialMonthlyLimit: int,
    gtxRpm: int,
    priority1: string,
    priority2: string,
    priority3: string,
    localUrl: string,
    localModel: string,
    localPrompt: string)

  /** The values the background worker starts with before storage is read. */
  const DefaultConfig := Config(
    "", 1000, 50000, 500000, 12, "gtx", "official", "local",
    "http://localhost:1234/v1/chat/completions", "local-model",
    "You are a professional translator. Translate the following text to English. Return only the translated text, no explanations.")

  datatype Availability = Available | Unavailable(reason: string)

  const DailyGtxReason := "Daily GTX Limit Reached"
  const HourlyGtxReason := "Hourly GTX Limit Reached"
  const NoKeyReason := "No API Key"
  const MonthlyOfficialReason := "Monthly Official Limit Exceeded"
  const DailyOfficialReason := "Daily Official Limit Exceeded"
  const NoLocalUrlReason := "No Local URL Configured"
  const UnknownEngineReason := "Unknown Engine"

  /** `checkEngineAvailability(engine, textLength)`, with the stored counters and
      the size of the (already pruned) hourly window passed in. The first
      failing test supplies the reason; official checks are projective: they
      ask whether this request would take the counter past the limit. */
  function CheckEngineAvailability(engine: string, textLength: nat, cfg: Config, st: Store, windowSize: nat): (a: Availability)
    // gtx: the daily limit is tested before the hourly window
    ensures EngineOf(engine) == Gtx ==>
      var used := GetGtxStats(st.gtxStats).dailyUsage;
      && (a == Unavailable(DailyGtxReason) <==> used >= cfg.gtxDailyLimit)
      && (a == Unavailable(HourlyGtxReason) <==> used < cfg.gtxDailyLimit && windowSize >= RateLimit.HourlyLimit)
      && (a == Available <==> used < cfg.gtxDailyLimit && windowSize < RateLimit.HourlyLimit)
    // official: key, then monthly, then daily; landing exactly on a limit is allowed
    ensures EngineOf(engine) == Official ==>
      var s := GetStats(st.stats);
      && (a == Unavailable(NoKeyReason) <==> cfg.googleApiKey == "")
      && (a == Unavailable(MonthlyOfficialReason) <==>
            cfg.googleApiKey != "" && s.monthlyUsageChars + textLength > cfg.officialMonthlyLimit)
      && (a == Unavailable(DailyOfficialReason) <==>
            cfg.googleApiKey != "" && s.monthlyUsageChars + textLength <= cfg.officialMonthlyLimit
            && s.dailyUsageChars + textLength > cfg.officialDailyLimit)
      && (a == Available <==>
            cfg.googleApiKey != "" && s.monthlyUsageChars + textLength <= cfg.officialMonthlyLimit
            && s.dailyUsageChars + textLength <= cfg.officialDailyLimit)
    // local: only an endpoint is needed
    ensures EngineOf(engine) == Local ==>
      (a == Available <==> cfg.localUrl != "") && (a != Available ==> a == Unavailable(NoLocalUrlReason))
    ensures EngineOf(engine) == Unknown ==> a == Unavailable(UnknownEngineReason)
  {
    match EngineOf(engine)
    case Gtx =>
      var g := GetGtxStats(st.gtxStats);
      if g.dailyUsage >= cfg.gtxDailyLimit then Unavailable(DailyGtxReason)
      else if windowSize >= RateLimit.HourlyLimit then Unavailable(HourlyGtxReason)
      else Available
    case Official =>
      if cfg.googleApiKey == "" then Unavailable(NoKeyReason)
      else
        var s := GetStats(st.stats);
        if s.monthlyUsageChars + textLength > cfg.officialMonthlyLimit then Unavailable(MonthlyOfficialReason)
        else if s.dailyUsageChars + textLength > cfg.officialDailyLimit then Unavailable(DailyOfficialReason)
        else Available
    case Local =>
      if cfg.localUrl == "" then Unavailable(NoLocalUrlReason) else Available
    case Unknown =>
      Unavailable(UnknownEngineReason)
  }

  /** Once `gtxDailyLimit` requests were counted since the last reset, GTX is
      refused for the day, whatever the hourly window or the official counters. */
  lemma GtxDailyCapHolds(textLength: nat, cfg: Config, st: Store, windowSize: nat)
    requires GetGtxStats(st.gtxStats).dailyUsage >= cfg.gtxDailyLimit
    ensures CheckEngineAvailability("gtx", textLength, cfg, st, windowSize) == Unavailable(DailyGtxReason)
  {
  }

  /** 99 requests inside the rolling hour refuse GTX with the hourly reason even
      when the daily limit is far away. */
  lemma GtxHourlyCapHolds(textLength: nat, cfg: Config, st: Store, window: seq<int>, now: int)
    requires GetGtxStats(st.gtxStats).dailyUsage < cfg.gtxDailyLimit
    requires |window| == RateLimit.HourlyLimit
    requires forall i :: 0 <= i < |window| ==> RateLimit.Recent(window[i], now)
    ensures CheckEngineAvailability("gtx", textLength, cfg, st, |RateLimit.Prune(window, now)|)
            == Unavailable(HourlyGtxReason)
  {
    PruneKeepsRecent(window, now);
  }

  lemma {:induction false} PruneKeepsRecent(ts: seq<int>, now: int)
    requires forall i :: 0 <= i < |ts| ==> RateLimit.Recent(ts[i], now)
    ensures RateLimit.Prune(ts, now) == ts
  {
    if ts != [] {
      PruneKeepsRecent(ts[1..], now);
      assert ts == [ts[0]] + ts[1..];
    }
  }
}

=== FILE: common.dfy ===
/** Failure-carrying wrappers shared by every module of the model. */
module Common {

  /** A value that may be absent: stands for JavaScript's `null` / `undefined`. */
  datatype Option<+T> = None | Some(value: T)

  /** The outcome of an operation that can throw: `Err` carries the thrown error's message. */
  datatype Result<+T> = Ok(value: T) | Err(message: string)

  /** JavaScript truthiness of an optional string: absent and "" are both falsy. */
  predicate Truthy(s: Option<string>) {
    s.Some? && s.value != ""
  }

  /** `a || b` on optional strings. */
  function OrElse(a: Option<string>, b: string): (r: string)
    ensures Truthy(a) ==> r == a.value
    ensures !Truthy(a) ==> r == b
  {
    if a.Some? && a.value != "" then a.value else b
  }
}

=== FILE: content.dfy ===
/** The chat-page observer's decisions: which users are ignored, which
    messages are worth a translation request, the at-most-once marking of a
    chat line, and the text appended to the line once the reply arrives. The
    DOM is reduced to what these decisions read: a chat line is its
    `translated` mark, its already-normalised author name and the text of its
    fragments. */
module Content {
  import opened Common
  import opened JsString
  import Dispatcher

  /** `CONFIG.MIN_NON_LATIN_CHARS`. */
  const MinNonLatinChars: nat := 2

  // ---------------------------------------------------------------- ignored users

  /** How an ignore-list entry and a displayed author name are compared: trimmed and lower-cased. */
  function Normalise(s: string): string {
    ToLower(Trim(s))
  }

  /** A name in the form the ignore set stores: non-empty, without commas,
      without surrounding whitespace and already lower-case. */
  predicate IsNormalName(u: string) {
    && u != ""
    && ',' !in u
    && !IsWhitespace(u[0]) && !IsWhitespace(u[|u| - 1])
    && ToLower(u) == u
  }

  /** `updateIgnoredUsersSet`: a falsy setting clears the set; otherwise the
      set holds the non-empty normalised comma-separated entries. */
  function IgnoredUsers(csv: Option<string>): (r: set<string>)
    ensures !Truthy(csv) ==> r == {}
    ensures Truthy(csv) ==>
              forall u :: u in r <==> u != "" && exists p :: p in Split(csv.value, ',') && Normalise(p) == u
    ensures forall u :: u in r ==> IsNormalName(u)
  {
    if !Truthy(csv) then {}
    else
      var parts := Split(csv.value, ',');
      var r := set p | p in parts && Normalise(p) != "" :: Normalise(p);
      forall u | u in r ensures IsNormalName(u) {
        var p :| p in parts && Normalise(p) == u;
        NormaliseGivesNormalName(p);
      }
      r
  }

  /** Lower-casing neither creates nor removes whitespace. */
  lemma LowerKeepsSpace(c: char)
    ensures IsWhitespace(LowerChar(c)) <==> IsWhitespace(c)
  {
  }

  /** A normalised separator-free entry is a normal name, or empty. */
  lemma NormaliseGivesNormalName(p: string)
    requires ',' !in p
    ensures Normalise(p) != "" ==> IsNormalName(Normalise(p))
  {
    var t := Trim(p);
    var u := ToLower(t);
    if u != "" {
      LowerKeepsSpace(t[0]);
      LowerKeepsSpace(t[|t| - 1]);
      assert forall i :: 0 <= i < |t| ==> t[i] in p;
      assert ',' !in u;
      assert ToLower(u) == u;
    }
  }

  /** A normal name is its own normal form. */
  lemma NormalNameFixed(u: string)
    requires IsNormalName(u)
    ensures Normalise(u) == u
  {
    assert LeadingSpace(u) == 0;
    assert TrailingSpace(u) == 0;
  }

  /** The ignore list as the settings page writes it: normal names joined by
      commas are read back as exactly those names. */
  lemma IgnoredUsersOfJoin(names: seq<string>)
    requires |names| >= 1
    requires forall i :: 0 <= i < |names| ==> IsNormalName(names[i])
    ensures IgnoredUsers(Some(Join(names, ','))) == set i | 0 <= i < |names| :: names[i]
  {
    SplitJoin(names, ',');
    forall i | 0 <= i < |names| {
      NormalNameFixed(names[i]);
    }
  }

  /** `extractUsername`: the first matching element's text, trimmed and
      lower-cased; `None` when no username element exists. */
  function ExtractUsername(found: Option<string>): (r: Option<string>)
    ensures r.None? <==> found.None?
    ensures r.Some? ==> r.value == Normalise(found.value)
  {
    match found
    case None => None
    case Some(t) => Some(Normalise(t))
  }

  /** `isUserIgnored`: a missing or empty name is never ignored; otherwise
      plain membership. */
  function IsUserIgnored(username: Option<string>, ignored: set<string>): (r: bool)
    ensures r <==> Truthy(username) && username.value in ignored
  {
    if !Truthy(username) then false else username.value in ignored
  }

  /** An author listed in the ignore setting is ignored however the entry and
      the displayed name differ in case or surrounding whitespace. */
  lemma ListedAuthorIgnored(csv: string, entry: string, displayed: string)
    requires entry in Split(csv, ',')
    requires Normalise(entry) == Normalise(displayed) != ""
    ensures IsUserIgnored(ExtractUsername(Some(displayed)), IgnoredUsers(Some(csv)))
  {
  }

  // ---------------------------------------------------------------- the gate

  /** Matches of `/[^\u0000-\u007F]/g`: without the `u` flag the regular
      expression sees UTF-16 code units, so a character outside the Basic
      Multilingual Plane counts twice. */
  function NonAsciiUnits(s: string): (n: nat)
    ensures n <= Length(s)
    ensures n == 0 <==> forall i :: 0 <= i < |s| ==> s[i] as int <= 0x7F
  {
    if s == [] then 0
    else (if s[0] as int > 0x7F then CodeUnits(s[0]) else 0) + NonAsciiUnits(s[1..])
  }

  /** A single character counts as its UTF-16 code units when it is not
      ASCII, and as nothing otherwise; with `NonAsciiUnitsAppend` this fixes
      the count of every text. */
  lemma NonAsciiUnitsOfChar(c: char)
    ensures NonAsciiUnits([c]) == if c as int > 0x7F then CodeUnits(c) else 0
  {
    assert [c][1..] == [];
  }

  /** Counting over a concatenation adds the counts. */
  lemma {:induction false} NonAsciiUnitsAppend(a: string, b: string)
    ensures NonAsciiUnits(a + b) == NonAsciiUnits(a) + NonAsciiUnits(b)
  {
    if a != [] {
      assert (a + b)[1..] == a[1..] + b;
      NonAsciiUnitsAppend(a[1..], b);
    } else {
      assert a + b == b;
    }
  }

  /** `shouldTranslate`: off when disabled or for empty text; otherwise at
      least two non-ASCII UTF-16 code units are needed. */
  function ShouldTranslate(enabled: bool, text: string): (r: bool)
    ensures !enabled || text == "" ==> !r
    ensures enabled && text != "" ==> (r <==> NonAsciiUnits(text) >= MinNonLatinChars)
  {
    if !enabled || text == "" then false
    else if NonAsciiUnits(text) == 0 then false
    else NonAsciiUnits(text) >= MinNonLatinChars
  }

  /** Pure ASCII is never sent, whatever its length. */
  lemma AsciiNeverTranslated(enabled: bool, text: string)
    requires forall i :: 0 <= i < |text| ==> text[i] as int <= 0x7F
    ensures !ShouldTranslate(enabled, text)
  {
  }

  /** One accented letter is not enough, but a single emoji outside the Basic
      Multilingual Plane is: it is two code units. */
  lemma CodeUnitCounting()
    ensures !ShouldTranslate(true, "café")
    ensures ShouldTranslate(true, "\U{1F600}")
    ensures ShouldTranslate(true, "こん")
  {
    assert NonAsciiUnits("café") == NonAsciiUnits("afé");
  }

  /** The gate looks at the whole line: two fragments with one non-ASCII unit
      each pass together though neither would alone. */
  lemma FragmentsCountTogether(a: string, b: string)
    requires NonAsciiUnits(a) == 1 && NonAsciiUnits(b) == 1
    ensures ShouldTranslate(true, Concat([a, b]))
    ensures !ShouldTranslate(true, a) && !ShouldTranslate(true, b)
  {
    assert Concat([a, b]) == a + b;
    NonAsciiUnitsAppend(a, b);
  }

  // ---------------------------------------------------------------- chat lines

  /** A chat line: its `data-translated` mark, the author name
      `extractUsername` finds, and the text of its `.text-fragment`s. */
  datatype ChatLine = ChatLine(translated: bool, username: Option<string>, fragments: seq<string>)

  /** The line after processing, and the text sent for translation, if any. */
  datatype Processed = Processed(line: ChatLine, request: Option<string>)

  /** `processMessageNode`: a hidden page defers the line untouched; a marked
      line is skipped; otherwise the line is marked first and a request is
      sent only for a non-ignored author whose fragments, concatenated in
      order, pass the gate. */
  function ProcessMessageNode(hidden: bool, line: ChatLine, enabled: bool, ignored: set<string>): (r: Processed)
    ensures hidden || line.translated ==> r == Processed(line, None)
    ensures !hidden ==> r.line == line.(translated := true)
    ensures r.request.Some? <==>
              && !hidden && !line.translated
              && !IsUserIgnored(line.username, ignored)
              && line.fragments != []
              && ShouldTranslate(enabled, Concat(line.fragments))
    ensures r.request.Some? ==> r.request.value == Concat(line.fragments)
  {
    if hidden || line.translated then Processed(line, None)
    else
      var marked := line.(translated := true);
      if IsUserIgnored(line.username, ignored) then Processed(marked, None)
      else if line.fragments == [] then Processed(marked, None)
      else
        var fullText := Concat(line.fragments);
        if !ShouldTranslate(enabled, fullText) then Processed(marked, None)
        else Processed(marked, Some(fullText))
  }

  /** The observer meeting the same line again and again, once per entry of
      `hidden` (the page's visibility at that moment): the line at the end and
      the number of requests sent. */
  function ProcessRepeatedly(hidden: seq<bool>, line: ChatLine, enabled: bool, ignored: set<string>): (r: (ChatLine, nat))
    decreases |hidden|
  {
    if hidden == [] then (line, 0)
    else
      var p := ProcessMessageNode(hidden[0], line, enabled, ignored);
      var (last, n) := ProcessRepeatedly(hidden[1..], p.line, enabled, ignored);
      (last, n + (if p.request.Some? then 1 else 0))
  }

  /** However often a line is met, at most one request is sent for it; none
      at all for a line already marked. */
  lemma {:induction false} AtMostOneRequest(hidden: seq<bool>, line: ChatLine, enabled: bool, ignored: set<string>)
    ensures ProcessRepeatedly(hidden, line, enabled, ignored).1 <= 1
    ensures line.translated ==> ProcessRepeatedly(hidden, line, enabled, ignored).1 == 0
    decreases |hidden|
  {
    if hidden != [] {
      var p := ProcessMessageNode(hidden[0], line, enabled, ignored);
      AtMostOneRequest(hidden[1..], p.line, enabled, ignored);
    }
  }

  /** A line first met while the page is hidden is handled as if met for the
      first time once the page is visible. */
  lemma HiddenDefers(line: ChatLine, enabled: bool, ignored: set<string>)
    ensures ProcessRepeatedly([true, false], line, enabled, ignored).1
            == ProcessRepeatedly([false], line, enabled, ignored).1
  {
    assert [true, false][1..] == [false];
  }

  // ---------------------------------------------------------------- rendering

  /** What the page receives for a request: a runtime error (no receiver), or
      the response object, which may be missing. */
  datatype Answer = RuntimeError | Answered(response: Option<Dispatcher.Response>)

  /** The appended span: its text and whether it is the failure style
      (`translation-failure`) rather than the translation style. */
  datatype Appended = Appended(text: string, failure: bool)

  const TranslationFailed := "Translation Failed"
  const ExtensionError := "Extension Error"

  /** `" (" + inner + ")"`, the text both `createTranslationElement` and `injectError` build. */
  function Parenthesised(inner: string): (r: string)
    ensures |r| == |inner| + 3
    ensures r[..2] == " (" && r[|r| - 1] == ')' && r[2..|r| - 1] == inner
  {
    " (" + inner + ")"
  }

  /** The response callback: the translation on success; otherwise the error
      text, falling back to "Translation Failed"; "Extension Error" when the
      message could not be delivered. */
  function Render(a: Answer): (r: Appended)
    ensures r.failure <==> !(a.Answered? && a.response.Some? && a.response.value.Success?)
    ensures !r.failure ==> r.text == Parenthesised(a.response.value.translation)
    ensures a.RuntimeError? ==> r.text == Parenthesised(ExtensionError)
    ensures a.Answered? && a.response.Some? && a.response.value.Failure? && a.response.value.error != "" ==>
              r.text == Parenthesised(a.response.value.error)
    ensures a.Answered? && (a.response.None? || (a.response.value.Failure? && a.response.value.error == "")) ==>
              r.text == Parenthesised(TranslationFailed)
  {
    match a
    case RuntimeError => Appended(Parenthesised(ExtensionError), true)
    case Answered(None) => Appended(Parenthesised(TranslationFailed), true)
    case Answered(Some(Success(t))) => Appended(Parenthesised(t), false)
    case Answered(Some(Failure(e))) => Appended(Parenthesised(if e != "" then e else TranslationFailed), true)
  }

  /** Every reply the dispatcher sends is shown as it was sent: a translation
      is never empty, and a failure always carries a non-empty reason, so the
      "Translation Failed" fallback never masks it. */
  lemma DispatcherRepliesShownVerbatim(text: string, c: Dispatcher.Cycle, loop: Dispatcher.Loop)
    ensures var resp := Dispatcher.RunCycle(text, c, loop).response;
            var shown := Render(Answered(Some(resp)));
            && shown.failure == resp.Failure?
            && (resp.Success? ==> resp.translation != "" && shown.text == Parenthesised(resp.translation))
            && (resp.Failure? ==> resp.error != "" && shown.text == Parenthesised(resp.error))
  {
  }
}

=== FILE: dispatcher.dfy ===
/** The background worker's dispatch loop: a FIFO queue of translation
    requests served one at a time; for each request the lazy quota resets, the
    hourly-window prune, and a walk over the three priority slots that tries
    each available engine until one returns. The clock, the timer and the
    network are inputs: every attempt receives the clock readings it would
    take and the reply each adapter would await. */
module Dispatcher {
  import opened Common
  import opened JsString
  import opened Quota
  import RateLimit
  import opened Availability
  import opened Adapters

  /** `{ text, sendResponse }`: the text and the channel its reply goes back on. */
  datatype Request = Request(text: string, replyTo: nat)

  /** The message sent back to the content script. */
  datatype Response = Success(translation: string) | Failure(error: string)

  datatype Delivery = Delivery(replyTo: nat, response: Response)

  const AllFailed := "All translation attempts failed."

  /** What a cycle reads and writes besides the queue: persisted counters, the
      GTX timestamp window and the instant of the last GTX request. */
  datatype Loop = Loop(store: Store, timestamps: seq<int>, lastRequestTime: int)

  /** The worker's module-level state. */
  datatype Worker = Worker(queue: seq<Request>, isProcessing: bool, loop: Loop)

  const InitialWorker := Worker([], false, Loop(EmptyStore, [], 0))

  /** The outside world as one priority slot sees it: `Date.now()` before the
      rate-limit check, after the delay (the stamped request time) and after a
      successful GTX fetch, and the reply each adapter would get. */
  datatype Slot = Slot(
    checkedAt: int,
    stampedAt: int,
    finishedAt: int,
    gtx: HttpReply<GtxNode>,
    official: HttpReply<OfficialPayload>,
    local: HttpReply<LocalPayload>)

  /** The outside world as one cycle sees it: the instant used for pruning,
      the local-day and billing-period keys, the instant a monthly reset
      stamps, the settings in force, and the three slots. */
  datatype Cycle = Cycle(now: int, today: string, period: string, isoNow: string, config: Config,
                         slot1: Slot, slot2: Slot, slot3: Slot)

  /** What happened at one priority slot. */
  datatype Outcome =
    | Skipped(engine: string, reason: string)
    | Threw(engine: string, message: string)
    | Returned(engine: string, text: string)

  function Priorities(cfg: Config): seq<string> {
    [cfg.priority1, cfg.priority2, cfg.priority3]
  }

  function Slots(c: Cycle): seq<Slot> {
    [c.slot1, c.slot2, c.slot3]
  }

  /** What the adapter of an available engine returns or throws. */
  function Call(e: Engine, slot: Slot): Result<string> {
    match e
    case Gtx => FetchTranslationGtx(slot.gtx)
    case Official => FetchTranslationOfficial(slot.official).result
    case _ => FetchTranslationLocal(slot.local)
  }

  /** The pause the rate limiter asks for before a GTX request. */
  function GtxDelay(cfg: Config, loop: Loop, slot: Slot): real {
    RateLimit.Delay(RateLimit.MinRequestInterval(cfg.gtxRpm), slot.checkedAt - loop.lastRequestTime)
  }

  /** The timer fired no earlier than the delay asked for. */
  predicate TimerHonoured(cfg: Config, loop: Loop, slot: Slot) {
    slot.stampedAt as real >= slot.checkedAt as real + GtxDelay(cfg, loop, slot)
  }

  /** One iteration of the priority loop. An unavailable engine is skipped
      with its reason and nothing changes. GTX stamps `lastRequestTime` before
      fetching, so a failed attempt still counts for spacing; only a returned
      fetch adds a timestamp and a request to the daily count. Official
      charges the text's UTF-16 length whenever its adapter did, even if it
      then threw. Local touches no state. */
  function TryEngine(engine: string, text: string, cfg: Config, loop: Loop, slot: Slot): (r: (Loop, Outcome))
    ensures r.1.engine == engine
    ensures var a := CheckEngineAvailability(engine, Length(text), cfg, loop.store, |loop.timestamps|);
            (r.1.Skipped? <==> a.Unavailable?) && (a.Unavailable? ==> r == (loop, Skipped(engine, a.reason)))
    // an engine that was tried reports exactly what its adapter returned or threw
    ensures !r.1.Skipped? ==>
              var res := Call(EngineOf(engine), slot);
              (r.1.Returned? <==> res.Ok?)
              && (r.1.Returned? ==> r.1.text == res.value)
              && (r.1.Threw? ==> r.1.message == res.message)
    ensures EngineOf(engine) == Gtx && !r.1.Skipped? ==>
              var before, after := GetGtxStats(loop.store.gtxStats), GetGtxStats(r.0.store.gtxStats);
              && r.0.lastRequestTime == slot.stampedAt
              && r.0.store.stats == loop.store.stats
              && (r.1.Returned? ==> r.0.timestamps == loop.timestamps + [slot.finishedAt]
                                    && after.dailyUsage == before.dailyUsage + 1
                                    && after.lastResetDay == before.lastResetDay)
              && (r.1.Threw? ==> r.0.timestamps == loop.timestamps && r.0.store == loop.store)
    ensures EngineOf(engine) == Official && !r.1.Skipped? ==>
              var before, after := GetStats(loop.store.stats), GetStats(r.0.store.stats);
              && r.0.timestamps == loop.timestamps
              && r.0.lastRequestTime == loop.lastRequestTime
              && r.0.store.gtxStats == loop.store.gtxStats
              && (FetchTranslationOfficial(slot.official).charged ==>
                    && after.monthlyUsageChars == before.monthlyUsageChars + Length(text)
                    && after.dailyUsageChars == before.dailyUsageChars + Length(text)
                    // the charge keeps every reset stamp
                    && after.lastResetDate == before.lastResetDate
                    && after.lastDailyResetDate == before.lastDailyResetDate
                    && after.lastResetPeriod == before.lastResetPeriod)
              && (!FetchTranslationOfficial(slot.official).charged ==> r.0.store == loop.store)
    ensures EngineOf(engine) == Local ==> r.0 == loop
  {
    var a := CheckEngineAvailability(engine, Length(text), cfg, loop.store, |loop.timestamps|);
    if a.Unavailable? then (loop, Skipped(engine, a.reason))
    else if EngineOf(engine) == Gtx then
      var stamped := loop.(lastRequestTime := slot.stampedAt);
      match FetchTranslationGtx(slot.gtx)
      case Ok(t) =>
        (stamped.(timestamps := loop.timestamps + [slot.finishedAt], store := UpdateGtxStats(loop.store, 1)),
         Returned(engine, t))
      case Err(m) => (stamped, Threw(engine, m))
    else if EngineOf(engine) == Official then
      var o := FetchTranslationOfficial(slot.official);
      var charged := if o.charged then loop.(store := UpdateStats(loop.store, Length(text))) else loop;
      match o.result
      case Ok(t) => (charged, Returned(engine, t))
      case Err(m) => (charged, Threw(engine, m))
    else
      match FetchTranslationLocal(slot.local)
      case Ok(t) => (loop, Returned(engine, t))
      case Err(m) => (loop, Threw(engine, m))
  }

  /** The state the priority loop hands to slot `n` when none of the slots
      before it returned: every earlier attempt's state change, applied in
      priority order. */
  function Threaded(engines: seq<string>, slots: seq<Slot>, text: string, cfg: Config, loop: Loop, n: nat): Loop
    requires |slots| == |engines| && n <= |engines|
    decreases n
  {
    if n == 0 then loop
    else Threaded(engines[1..], slots[1..], text, cfg, TryEngine(engines[0], text, cfg, loop, slots[0]).0, n - 1)
  }

  /** The `for (const engine of priorities)` loop: one outcome per slot tried,
      in priority order, stopping at the first engine that returned. */
  function TryEngines(engines: seq<string>, slots: seq<Slot>, text: string, cfg: Config, loop: Loop): (r: (Loop, seq<Outcome>))
    requires |slots| == |engines|
    ensures 0 < |r.1| <= |engines| || (engines == [] && r.1 == [])
    ensures forall i :: 0 <= i < |r.1| ==> r.1[i].engine == engines[i]
    ensures forall i :: 0 <= i < |r.1| - 1 ==> !r.1[i].Returned?
    ensures |r.1| < |engines| ==> r.1[|r.1| - 1].Returned?
    decreases |engines|
  {
    if engines == [] then (loop, [])
    else
      var (next, o) := TryEngine(engines[0], text, cfg, loop, slots[0]);
      if o.Returned? then (next, [o])
      else
        var (last, rest) := TryEngines(engines[1..], slots[1..], text, cfg, next);
        (last, [o] + rest)
  }

  /** Each slot of the priority loop is tried on the state every earlier
      attempt left behind. */
  lemma LoopThreadsState(engines: seq<string>, slots: seq<Slot>, text: string, cfg: Config, loop: Loop)
    requires |slots| == |engines|
    ensures var r := TryEngines(engines, slots, text, cfg, loop).1;
            forall i :: 0 <= i < |r| ==>
              r[i] == TryEngine(engines[i], text, cfg, Threaded(engines, slots, text, cfg, loop, i), slots[i]).1
  {
    forall i | 0 <= i < |TryEngines(engines, slots, text, cfg, loop).1| {
      SlotThreadsState(engines, slots, text, cfg, loop, i);
    }
  }

  /** The outcome at slot `i` is the attempt on the state slots `0..i-1` left. */
  lemma {:induction false} SlotThreadsState(engines: seq<string>, slots: seq<Slot>, text: string, cfg: Config, loop: Loop, i: nat)
    requires |slots| == |engines|
    requires i < |TryEngines(engines, slots, text, cfg, loop).1|
    ensures TryEngines(engines, slots, text, cfg, loop).1[i]
              == TryEngine(engines[i], text, cfg, Threaded(engines, slots, text, cfg, loop, i), slots[i]).1
    decreases i
  {
    var first := TryEngine(engines[0], text, cfg, loop, slots[0]);
    var r := TryEngines(engines, slots, text, cfg, loop).1;
    if i > 0 {
      var rest := TryEngines(engines[1..], slots[1..], text, cfg, first.0).1;
      assert r == [first.1] + rest;
      SlotThreadsState(engines[1..], slots[1..], text, cfg, first.0, i - 1);
      var before := Threaded(engines[1..], slots[1..], text, cfg, first.0, i - 1);
      assert engines[1..][i - 1] == engines[i] && slots[1..][i - 1] == slots[i];
      assert Threaded(engines, slots, text, cfg, loop, i) == before;
      assert r[i] == rest[i - 1];
      assert r[i] == TryEngine(engines[i], text, cfg, before, slots[i]).1;
    } else {
      assert Threaded(engines, slots, text, cfg, loop, 0) == loop;
      assert r[0] == first.1;
    }
  }

  /** The priority loop ends in the state its last attempt left. */
  lemma {:induction false} LoopEndsThreaded(engines: seq<string>, slots: seq<Slot>, text: string, cfg: Config, loop: Loop)
    requires |slots| == |engines|
    ensures var r := TryEngines(engines, slots, text, cfg, loop);
            r.0 == Threaded(engines, slots, text, cfg, loop, |r.1|)
    decreases |engines|
  {
    if engines != [] {
      var first := TryEngine(engines[0], text, cfg, loop, slots[0]);
      var next, o := first.0, first.1;
      if !o.Returned? {
        LoopEndsThreaded(engines[1..], slots[1..], text, cfg, next);
      }
    }
  }

  /** The reason or message an outcome leaves in `lastError`. */
  function ErrorOf(o: Outcome): Option<string> {
    match o
    case Skipped(_, reason) => Some(reason)
    case Threw(_, message) => Some(message)
    case Returned(_, _) => None
  }

  /** `lastError` after the loop: every skip and every failure overwrites it,
      so it holds the error of the last outcome that was not a return. */
  function LastError(trace: seq<Outcome>): (e: Option<string>)
    ensures e.None? <==> forall i :: 0 <= i < |trace| ==> trace[i].Returned?
    ensures e.Some? ==> exists i :: 0 <= i < |trace| && ErrorOf(trace[i]) == e
                                    && forall j :: i < j < |trace| ==> trace[j].Returned?
  {
    LastErrorWithin(trace, |trace|)
  }

  /** `lastError` after the first `n` outcomes of the loop. */
  function LastErrorWithin(trace: seq<Outcome>, n: nat): (e: Option<string>)
    requires n <= |trace|
    ensures e.None? <==> forall i :: 0 <= i < n ==> trace[i].Returned?
    ensures e.Some? ==> exists i :: 0 <= i < n && ErrorOf(trace[i]) == e
                                    && forall j :: i < j < n ==> trace[j].Returned?
  {
    if n == 0 then None
    else if !trace[n - 1].Returned? then ErrorOf(trace[n - 1])
    else LastErrorWithin(trace, n - 1)
  }

  /** The reply for a finished loop: success only for a truthy result. */
  function Respond(trace: seq<Outcome>): (r: Response)
    ensures r.Success? <==> trace != [] && trace[|trace| - 1].Returned? && trace[|trace| - 1].text != ""
    ensures r.Success? ==> r.translation == trace[|trace| - 1].text
    ensures r.Failure? ==> r.error == OrElse(LastError(trace), AllFailed)
  {
    if trace != [] && trace[|trace| - 1].Returned? && trace[|trace| - 1].text != "" then
      Success(trace[|trace| - 1].text)
    else Failure(OrElse(LastError(trace), AllFailed))
  }

  /** The state every engine check of a cycle starts from: the three resets,
      then the hourly window pruned at the cycle's instant. */
  function Prepare(loop: Loop, c: Cycle): (r: Loop)
    ensures r.lastRequestTime == loop.lastRequestTime
    ensures forall i :: 0 <= i < |r.timestamps| ==> RateLimit.Recent(r.timestamps[i], c.now)
    ensures RateLimit.IsSubsequence(r.timestamps, loop.timestamps)
    ensures GetGtxStats(r.store.gtxStats).lastResetDay == Some(c.today)
    ensures GetStats(r.store.stats).lastDailyResetDate == Some(c.today)
    ensures GetStats(r.store.stats).lastResetPeriod == Some(c.period)
    ensures r.store == ResetAll(loop.store, c.today, c.period, c.isoNow)
    ensures r.timestamps == RateLimit.Prune(loop.timestamps, c.now)
    // a store already stamped today keeps its GTX count
    ensures GetGtxStats(loop.store.gtxStats).lastResetDay == Some(c.today) ==>
              GetGtxStats(r.store.gtxStats) == GetGtxStats(loop.store.gtxStats)
  {
    Loop(ResetAll(loop.store, c.today, c.period, c.isoNow), RateLimit.Prune(loop.timestamps, c.now), loop.lastRequestTime)
  }

  datatype CycleResult = CycleResult(loop: Loop, trace: seq<Outcome>, response: Response)

  /** The body of `processQueue` for the request at the head of the queue. */
  function RunCycle(text: string, c: Cycle, loop: Loop): (r: CycleResult)
    ensures 1 <= |r.trace| <= 3
    ensures forall i :: 0 <= i < |r.trace| ==> r.trace[i].engine == Priorities(c.config)[i]
    ensures forall i :: 0 <= i < |r.trace| - 1 ==> !r.trace[i].Returned?
    ensures |r.trace| < 3 ==> r.trace[|r.trace| - 1].Returned?
    ensures r.response.Success? <==> r.trace[|r.trace| - 1].Returned? && r.trace[|r.trace| - 1].text != ""
    ensures r.response.Failure? ==> r.response.error == OrElse(LastError(r.trace), AllFailed)
  {
    var (after, trace) := TryEngines(Priorities(c.config), Slots(c), text, c.config, Prepare(loop, c));
    CycleResult(after, trace, Respond(trace))
  }

  /** Every slot of a cycle is tried on the state the resets, the prune and
      the earlier slots left, and the cycle ends in the state its last
      attempt left. */
  lemma CycleThreadsState(text: string, c: Cycle, loop: Loop)
    ensures var r, es, p := RunCycle(text, c, loop), Priorities(c.config), Prepare(loop, c);
            && (forall i :: 0 <= i < |r.trace| ==>
                  r.trace[i] == TryEngine(es[i], text, c.config, Threaded(es, Slots(c), text, c.config, p, i), Slots(c)[i]).1)
            && r.loop == Threaded(es, Slots(c), text, c.config, p, |r.trace|)
  {
    LoopThreadsState(Priorities(c.config), Slots(c), text, c.config, Prepare(loop, c));
    LoopEndsThreaded(Priorities(c.config), Slots(c), text, c.config, Prepare(loop, c));
  }

  // ---------------------------------------------------------------- the queue

  /** `requestQueue.push`. */
  function Push(w: Worker, req: Request): (r: Worker)
    ensures r.queue == w.queue + [req]
    ensures r.isProcessing == w.isProcessing && r.loop == w.loop
  {
    w.(queue := w.queue + [req])
  }

  /** One call of `processQueue`: nothing while a cycle is already running or
      the queue is empty; otherwise the head request is shifted off, served,
      and answered, and the worker is idle again. */
  function ProcessQueue(w: Worker, c: Cycle): (r: (Worker, Option<Delivery>))
    ensures w.isProcessing || w.queue == [] ==> r == (w, None)
    ensures !w.isProcessing && w.queue != [] ==>
              && r.0.queue == w.queue[1..]
              && !r.0.isProcessing
              && r.1.Some? && r.1.value.replyTo == w.queue[0].replyTo
              && r.1.value.response == RunCycle(w.queue[0].text, c, w.loop).response
              && r.0.loop == RunCycle(w.queue[0].text, c, w.loop).loop
  {
    if w.isProcessing || w.queue == [] then (w, None)
    else
      var req := w.queue[0];
      var res := RunCycle(req.text, c, w.loop);
      (Worker(w.queue[1..], false, res.loop), Some(Delivery(req.replyTo, res.response)))
  }

  /** The state after the first `n` requests of `reqs` are served, one cycle
      each, every cycle starting where the previous one ended. */
  function AfterServing(reqs: seq<Request>, cs: seq<Cycle>, loop: Loop, n: nat): Loop
    requires n <= |reqs| && n <= |cs|
    decreases n
  {
    if n == 0 then loop
    else AfterServing(reqs[1..], cs[1..], RunCycle(reqs[0].text, cs[0], loop).loop, n - 1)
  }

  /** The replies of the back-to-back cycles that serve `reqs` from the
      front, one per supplied cycle environment, and the state they end in:
      the `i`-th reply is what the `i`-th request's cycle answers on the
      state the earlier cycles left. */
  function Serve(reqs: seq<Request>, cs: seq<Cycle>, loop: Loop): (r: (Loop, seq<Delivery>))
    ensures |r.1| == if |cs| < |reqs| then |cs| else |reqs|
    ensures forall i :: 0 <= i < |r.1| ==> r.1[i].replyTo == reqs[i].replyTo
    decreases |cs|
  {
    if reqs == [] || cs == [] then (loop, [])
    else
      var res := RunCycle(reqs[0].text, cs[0], loop);
      var rest := Serve(reqs[1..], cs[1..], res.loop);
      (rest.0, [Delivery(reqs[0].replyTo, res.response)] + rest.1)
  }

  /** The cycles end in the state left by serving as many requests as they
      answered. */
  lemma {:induction false} ServeEnds(reqs: seq<Request>, cs: seq<Cycle>, loop: Loop)
    ensures var r := Serve(reqs, cs, loop);
            r.0 == AfterServing(reqs, cs, loop, |r.1|)
    decreases |cs|
  {
    if reqs != [] && cs != [] {
      var res := RunCycle(reqs[0].text, cs[0], loop);
      ServeEnds(reqs[1..], cs[1..], res.loop);
    }
  }

  /** The `i`-th reply is what the `i`-th request's cycle answers on the
      state the earlier cycles left. */
  lemma {:induction false} ServeAnswers(reqs: seq<Request>, cs: seq<Cycle>, loop: Loop)
    ensures var r := Serve(reqs, cs, loop);
            forall i :: 0 <= i < |r.1| ==>
              r.1[i].response == RunCycle(reqs[i].text, cs[i], AfterServing(reqs, cs, loop, i)).response
    decreases |cs|
  {
    if reqs != [] && cs != [] {
      var res := RunCycle(reqs[0].text, cs[0], loop);
      ServeAnswers(reqs[1..], cs[1..], res.loop);
      var r, rest := Serve(reqs, cs, loop), Serve(reqs[1..], cs[1..], res.loop);
      assert r.1 == [Delivery(reqs[0].replyTo, res.response)] + rest.1;
      forall i | 0 < i < |r.1|
        ensures r.1[i].response == RunCycle(reqs[i].text, cs[i], AfterServing(reqs, cs, loop, i)).response
      {
        assert r.1[i] == rest.1[i - 1];
        assert reqs[i] == reqs[1..][i - 1] && cs[i] == cs[1..][i - 1];
      }
    }
  }

  /** The tail call `if (requestQueue.length > 0) processQueue()`: cycles run
      back to back, one per supplied cycle environment, until the queue is
      empty; each request is answered by its own cycle, run on the state the
      earlier cycles left. */
  function Drain(w: Worker, cs: seq<Cycle>): (r: (Worker, seq<Delivery>))
    requires !w.isProcessing
    ensures !r.0.isProcessing
    ensures |r.1| == if |cs| < |w.queue| then |cs| else |w.queue|
    ensures r.0.queue == w.queue[|r.1|..]
    ensures forall i :: 0 <= i < |r.1| ==> r.1[i].replyTo == w.queue[i].replyTo
    ensures forall i :: 0 <= i < |r.1| ==>
              r.1[i].response == RunCycle(w.queue[i].text, cs[i], AfterServing(w.queue, cs, w.loop, i)).response
    ensures r.0.loop == AfterServing(w.queue, cs, w.loop, |r.1|)
  {
    var (after, replies) := Serve(w.queue, cs, w.loop);
    ServeAnswers(w.queue, cs, w.loop);
    ServeEnds(w.queue, cs, w.loop);
    (Worker(w.queue[|replies|..], false, after), replies)
  }

  /** `handleTranslationRequest`: enqueue, then try to start the loop. */
  function HandleTranslationRequest(w: Worker, req: Request, cs: seq<Cycle>): (r: (Worker, seq<Delivery>))
    ensures w.isProcessing ==> r == (Push(w, req), [])
    ensures !w.isProcessing && |cs| > |w.queue| ==>
              r.0.queue == [] && |r.1| == |w.queue| + 1 && r.1[|w.queue|].replyTo == req.replyTo
    // when idle, the waiting requests and then the new one are served back
    // to back, each on the state the earlier cycles left
    ensures !w.isProcessing ==>
              var q := w.queue + [req];
              && !r.0.isProcessing
              && |r.1| == (if |cs| < |q| then |cs| else |q|)
              && r.0.queue == q[|r.1|..]
              && (forall i :: 0 <= i < |r.1| ==> r.1[i].replyTo == q[i].replyTo)
              && (forall i :: 0 <= i < |r.1| ==>
                    r.1[i].response == RunCycle(q[i].text, cs[i], AfterServing(q, cs, w.loop, i)).response)
              && r.0.loop == AfterServing(q, cs, w.loop, |r.1|)
  {
    var pushed := Push(w, req);
    if w.isProcessing then (pushed, []) else Drain(pushed, cs)
  }

  // ---------------------------------------------------------------- properties

  /** The worker after `reqs` arrive, one call of `handleTranslationRequest`
      each, while a cycle is in flight. */
  function Arrivals(w: Worker, reqs: seq<Request>): (r: Worker)
    requires w.isProcessing
    ensures r.isProcessing && r.loop == w.loop
    ensures r.queue == w.queue + reqs
    decreases |reqs|
  {
    if reqs == [] then w
    else
      var next := HandleTranslationRequest(w, reqs[0], []).0;
      assert next.queue + reqs[1..] == w.queue + reqs;
      Arrivals(next, reqs[1..])
  }

  /** Requests are answered in arrival order: whatever arrives while a cycle
      is in flight is answered, once that cycle ends and the queue drains,
      after the requests already waiting and in the order it arrived. */
  lemma FifoOrder(w: Worker, reqs: seq<Request>, cs: seq<Cycle>)
    requires w.isProcessing
    requires |cs| >= |w.queue| + |reqs|
    ensures var r := Drain(Arrivals(w, reqs).(isProcessing := false), cs);
            && r.0.queue == []
            && |r.1| == |w.queue + reqs|
            && forall k :: 0 <= k < |r.1| ==> r.1[k].replyTo == (w.queue + reqs)[k].replyTo
  {
    var idle := Arrivals(w, reqs).(isProcessing := false);
    assert idle.queue == w.queue + reqs;
  }

  /** A request that arrives while a cycle is running is queued behind the
      waiting ones and answered by none of the current calls. */
  lemma BusyWorkerOnlyEnqueues(w: Worker, req: Request, cs: seq<Cycle>)
    requires w.isProcessing
    ensures HandleTranslationRequest(w, req, cs).1 == []
    ensures HandleTranslationRequest(w, req, cs).0.queue[|w.queue|] == req
  {
  }

  /** An engine that returns an empty text, at whatever slot, still ends the
      loop, but the caller receives a failure carrying the error of the last
      slot before it that did not return, or the generic message. */
  lemma EmptyResultStopsButFails(text: string, c: Cycle, loop: Loop, k: nat)
    requires k < |RunCycle(text, c, loop).trace|
    requires RunCycle(text, c, loop).trace[k] == Returned(Priorities(c.config)[k], "")
    ensures |RunCycle(text, c, loop).trace| == k + 1
    ensures RunCycle(text, c, loop).response == Failure(OrElse(LastError(RunCycle(text, c, loop).trace[..k]), AllFailed))
  {
    var trace := RunCycle(text, c, loop).trace;
    assert !(k < |trace| - 1);
    LastErrorOfPrefix(trace, k);
    assert LastError(trace) == LastErrorWithin(trace, k + 1);
  }

  /** Outcomes past the first `n` do not change `lastError` as seen after `n`. */
  lemma {:induction false} LastErrorOfPrefix(trace: seq<Outcome>, n: nat)
    requires n < |trace| && trace[n].Returned?
    ensures LastErrorWithin(trace, n + 1) == LastError(trace[..n])
  {
    PrefixWithin(trace, n, n);
  }

  /** `lastError` after `m` outcomes depends only on those outcomes. */
  lemma {:induction false} PrefixWithin(trace: seq<Outcome>, n: nat, m: nat)
    requires m <= n <= |trace|
    ensures LastErrorWithin(trace, m) == LastErrorWithin(trace[..n], m)
    decreases m
  {
    if m > 0 {
      assert trace[..n][m - 1] == trace[m - 1];
      PrefixWithin(trace, n, m - 1);
    }
  }

  /** The first slot's empty result: nothing failed before it, so the
      caller sees the generic message. */
  lemma EmptyFirstResultFails(text: string, c: Cycle, loop: Loop)
    requires c.config.priority1 == "local" && c.config.localUrl != ""
    requires FetchTranslationLocal(c.slot1.local) == Ok("")
    ensures |RunCycle(text, c, loop).trace| == 1
    ensures RunCycle(text, c, loop).response == Failure(AllFailed)
  {
    EmptyResultStopsButFails(text, c, loop, 0);
  }

  /** The fallback chain: Official first but without a key, Local second but
      throwing. The request still reaches GTX, on the state the resets and
      the prune left, and the caller gets GTX's text, or GTX's reason, or,
      when GTX returned nothing, Local's message. */
  lemma FallsBackToGtx(text: string, c: Cycle, loop: Loop)
    requires c.config.priority1 == "official" && c.config.priority2 == "local" && c.config.priority3 == "gtx"
    requires c.config.googleApiKey == "" && c.config.localUrl != ""
    requires FetchTranslationLocal(c.slot2.local).Err?
    ensures var r, m := RunCycle(text, c, loop), FetchTranslationLocal(c.slot2.local).message;
            && |r.trace| == 3
            && r.trace[0] == Skipped("official", NoKeyReason)
            && r.trace[1] == Threw("local", m)
            && r.trace[2] == TryEngine("gtx", text, c.config, Prepare(loop, c), c.slot3).1
            && (r.trace[2].Returned? && r.trace[2].text != "" ==> r.response == Success(r.trace[2].text))
            && (r.trace[2].Returned? && r.trace[2].text == "" ==> r.response == Failure(OrElse(Some(m), AllFailed)))
            && (r.trace[2].Skipped? ==> r.response == Failure(r.trace[2].reason))
            && (r.trace[2].Threw? ==> r.response == Failure(OrElse(Some(r.trace[2].message), AllFailed)))
  {
    FallbackTrace(text, c, loop);
  }

  /** The outcomes of the fallback chain: Official skipped for want of a
      key, Local's error, then GTX tried on the prepared state. */
  lemma FallbackTrace(text: string, c: Cycle, loop: Loop)
    requires c.config.priority1 == "official" && c.config.priority2 == "local" && c.config.priority3 == "gtx"
    requires c.config.googleApiKey == "" && c.config.localUrl != ""
    requires FetchTranslationLocal(c.slot2.local).Err?
    ensures var r := RunCycle(text, c, loop);
            && |r.trace| == 3
            && r.trace[0] == Skipped("official", NoKeyReason)
            && r.trace[1] == Threw("local", FetchTranslationLocal(c.slot2.local).message)
            && r.trace[2] == TryEngine("gtx", text, c.config, Prepare(loop, c), c.slot3).1
  {
    var es, slots, p := Priorities(c.config), Slots(c), Prepare(loop, c);
    CycleThreadsState(text, c, loop);
    assert TryEngine(es[0], text, c.config, p, slots[0]) == (p, Skipped("official", NoKeyReason));
    assert Threaded(es, slots, text, c.config, p, 1) == p;
    assert TryEngine(es[1], text, c.config, p, slots[1]).0 == p;
    assert Threaded(es, slots, text, c.config, p, 2) == p;
  }

  /** With no recognised engine in any slot every slot is skipped and the
      caller sees the last skip reason. */
  lemma UnknownEnginesFail(text: string, c: Cycle, loop: Loop)
    requires EngineOf(c.config.priority1) == Unknown
    requires EngineOf(c.config.priority2) == Unknown
    requires EngineOf(c.config.priority3) == Unknown
    ensures RunCycle(text, c, loop).response == Failure(UnknownEngineReason)
    ensures RunCycle(text, c, loop).loop == Prepare(loop, c)
  {
    var es := Priorities(c.config);
    assert forall i :: 0 <= i < |es| ==> EngineOf(es[i]) == Unknown;
    UnknownSkipped(es, Slots(c), text, c.config, Prepare(loop, c));
    var trace := RunCycle(text, c, loop).trace;
    assert ErrorOf(trace[2]) == Some(UnknownEngineReason);
  }

  /** Slots naming no known engine are all skipped and change nothing. */
  lemma {:induction false} UnknownSkipped(engines: seq<string>, slots: seq<Slot>, text: string, cfg: Config, loop: Loop)
    requires |slots| == |engines|
    requires forall i :: 0 <= i < |engines| ==> EngineOf(engines[i]) == Unknown
    ensures var r := TryEngines(engines, slots, text, cfg, loop);
            r.0 == loop && |r.1| == |engines|
            && forall i :: 0 <= i < |engines| ==> r.1[i] == Skipped(engines[i], UnknownEngineReason)
    decreases |engines|
  {
    if engines != [] {
      UnknownSkipped(engines[1..], slots[1..], text, cfg, loop);
    }
  }

  /** A GTX attempt whose timer fires no earlier than asked is at least one
      minimum interval after the previous GTX attempt, failed or not. */
  lemma GtxSpacing(text: string, cfg: Config, loop: Loop, slot: Slot)
    requires CheckEngineAvailability("gtx", Length(text), cfg, loop.store, |loop.timestamps|) == Available
    requires TimerHonoured(cfg, loop, slot)
    ensures var after := TryEngine("gtx", text, cfg, loop, slot).0;
            (after.lastRequestTime - loop.lastRequestTime) as real >= RateLimit.MinRequestInterval(cfg.gtxRpm)
  {
    RateLimit.DelayRestoresSpacing(RateLimit.MinRequestInterval(cfg.gtxRpm), loop.lastRequestTime, slot.checkedAt, slot.stampedAt);
  }

  // ---------------------------------------------------------------- the GTX daily count

  /** 1 when the loop ended on a GTX return, the only outcome that adds to
      the stored GTX count; 0 otherwise. */
  function GtxWon(trace: seq<Outcome>): nat {
    if trace != [] && trace[|trace| - 1].Returned? && EngineOf(trace[|trace| - 1].engine) == Gtx then 1 else 0
  }

  /** The priority loop adds one to the GTX count exactly when it ends on a
      GTX return, and never moves the GTX reset day. */
  lemma {:induction false} LoopCountsGtx(engines: seq<string>, slots: seq<Slot>, text: string, cfg: Config, loop: Loop)
    requires |slots| == |engines|
    ensures var r, before := TryEngines(engines, slots, text, cfg, loop), GetGtxStats(loop.store.gtxStats);
            && GetGtxStats(r.0.store.gtxStats).dailyUsage == before.dailyUsage + GtxWon(r.1)
            && GetGtxStats(r.0.store.gtxStats).lastResetDay == before.lastResetDay
    decreases |engines|
  {
    if engines != [] {
      var first := TryEngine(engines[0], text, cfg, loop, slots[0]);
      var next, o := first.0, first.1;
      if !o.Returned? {
        assert GetGtxStats(next.store.gtxStats) == GetGtxStats(loop.store.gtxStats);
        LoopCountsGtx(engines[1..], slots[1..], text, cfg, next);
        var rest := TryEngines(engines[1..], slots[1..], text, cfg, next).1;
        assert TryEngines(engines, slots, text, cfg, loop).1 == [o] + rest;
        assert GtxWon([o] + rest) == GtxWon(rest);
      }
    }
  }

  /** A cycle on the day the GTX count was last reset adds one to it exactly
      when the cycle ends on a GTX return. */
  lemma CycleCountsGtx(text: string, c: Cycle, loop: Loop)
    requires GetGtxStats(loop.store.gtxStats).lastResetDay == Some(c.today)
    ensures var r := RunCycle(text, c, loop);
            && GetGtxStats(r.loop.store.gtxStats).dailyUsage == GetGtxStats(loop.store.gtxStats).dailyUsage + GtxWon(r.trace)
            && GetGtxStats(r.loop.store.gtxStats).lastResetDay == Some(c.today)
  {
    LoopCountsGtx(Priorities(c.config), Slots(c), text, c.config, Prepare(loop, c));
  }

  /** How many of the first `n` back-to-back cycles ended on a GTX return. */
  function GtxWins(reqs: seq<Request>, cs: seq<Cycle>, loop: Loop, n: nat): nat
    requires n <= |reqs| && n <= |cs|
    decreases n
  {
    if n == 0 then 0
    else
      var res := RunCycle(reqs[0].text, cs[0], loop);
      GtxWon(res.trace) + GtxWins(reqs[1..], cs[1..], res.loop, n - 1)
  }

  /** Within one day, the stored GTX count after serving `n` requests is the
      count before plus the GTX successes among them. */
  lemma {:induction false} ServedCountsGtx(reqs: seq<Request>, cs: seq<Cycle>, loop: Loop, day: string, n: nat)
    requires n <= |reqs| && n <= |cs|
    requires GetGtxStats(loop.store.gtxStats).lastResetDay == Some(day)
    requires forall c <- cs[..n] :: c.today == day
    ensures var after := GetGtxStats(AfterServing(reqs, cs, loop, n).store.gtxStats);
            && after.dailyUsage == GetGtxStats(loop.store.gtxStats).dailyUsage + GtxWins(reqs, cs, loop, n)
            && after.lastResetDay == Some(day)
    decreases n
  {
    if n > 0 {
      var res := RunCycle(reqs[0].text, cs[0], loop);
      assert cs[0] in cs[..n];
      CycleCountsGtx(reqs[0].text, cs[0], loop);
      assert cs[1..][..n - 1] == cs[1..n];
      ServedCountsGtx(reqs[1..], cs[1..], res.loop, day, n - 1);
      assert AfterServing(reqs, cs, loop, n) == AfterServing(reqs[1..], cs[1..], res.loop, n - 1);
      assert GtxWins(reqs, cs, loop, n) == GtxWon(res.trace) + GtxWins(reqs[1..], cs[1..], res.loop, n - 1);
    }
  }

  /** Once the GTX count has reached the daily limit, every GTX slot of the
      loop is skipped with the daily reason. */
  lemma {:induction false} CapSkipsGtx(engines: seq<string>, slots: seq<Slot>, text: string, cfg: Config, loop: Loop)
    requires |slots| == |engines|
    requires GetGtxStats(loop.store.gtxStats).dailyUsage >= cfg.gtxDailyLimit
    ensures forall o <- TryEngines(engines, slots, text, cfg, loop).1 :: EngineOf(o.engine) == Gtx ==> o == Skipped(o.engine, DailyGtxReason)
    decreases |engines|
  {
    if engines != [] {
      var first := TryEngine(engines[0], text, cfg, loop, slots[0]);
      var next, o := first.0, first.1;
      assert EngineOf(engines[0]) == Gtx ==> o == Skipped(engines[0], DailyGtxReason);
      var r := TryEngines(engines, slots, text, cfg, loop).1;
      if o.Returned? {
        assert r == [o];
      } else {
        assert GetGtxStats(next.store.gtxStats) == GetGtxStats(loop.store.gtxStats);
        CapSkipsGtx(engines[1..], slots[1..], text, cfg, next);
        var rest := TryEngines(engines[1..], slots[1..], text, cfg, next).1;
        assert r == [o] + rest;
      }
    }
  }

  /** The daily GTX cap across requests: within one day, once the GTX
      successes of the requests served so far bring the count to the limit,
      the next request's cycle skips every GTX slot with the daily reason. */
  lemma GtxDailyCapAcrossRequests(reqs: seq<Request>, cs: seq<Cycle>, loop: Loop, day: string, n: nat)
    requires n < |reqs| && n < |cs|
    requires GetGtxStats(loop.store.gtxStats).lastResetDay == Some(day)
    requires forall c <- cs[..n + 1] :: c.today == day
    requires GetGtxStats(loop.store.gtxStats).dailyUsage + GtxWins(reqs, cs, loop, n) >= cs[n].config.gtxDailyLimit
    ensures forall o <- RunCycle(reqs[n].text, cs[n], AfterServing(reqs, cs, loop, n)).trace ::
              EngineOf(o.engine) == Gtx ==> o == Skipped(o.engine, DailyGtxReason)
  {
    ServedCountsGtx(reqs, cs, loop, day, n);
    var before := AfterServing(reqs, cs, loop, n);
    CapSkipsGtx(Priorities(cs[n].config), Slots(cs[n]), reqs[n].text, cs[n].config, Prepare(before, cs[n]));
  }

  /** `x` went up, if at all, only as far as `limit`. */
  predicate Capped(x: int, before: int, limit: int) {
    x <= before || x <= limit
  }

  /** The quotas one cycle's engine loop cannot overrun: each counter ends no
      higher than where it began or its limit, and the hourly window holds no
      more than it did or the hourly cap. */
  predicate WithinLimits(before: Loop, after: Loop, cfg: Config) {
    && Capped(GetGtxStats(after.store.gtxStats).dailyUsage, GetGtxStats(before.store.gtxStats).dailyUsage, cfg.gtxDailyLimit)
    && Capped(GetStats(after.store.stats).dailyUsageChars, GetStats(before.store.stats).dailyUsageChars, cfg.officialDailyLimit)
    && Capped(GetStats(after.store.stats).monthlyUsageChars, GetStats(before.store.stats).monthlyUsageChars, cfg.officialMonthlyLimit)
    && Capped(|after.timestamps|, |before.timestamps|, RateLimit.HourlyLimit)
  }

  lemma AttemptWithinLimits(engine: string, text: string, cfg: Config, loop: Loop, slot: Slot)
    ensures WithinLimits(loop, TryEngine(engine, text, cfg, loop, slot).0, cfg)
  {
  }

  /** However the priority slots repeat engines, the loop charges no counter
      past its limit and grows the hourly window no further than the cap. */
  lemma {:induction false} LoopWithinLimits(engines: seq<string>, slots: seq<Slot>, text: string, cfg: Config, loop: Loop)
    requires |slots| == |engines|
    ensures WithinLimits(loop, TryEngines(engines, slots, text, cfg, loop).0, cfg)
    decreases |engines|
  {
    if engines != [] {
      var first := TryEngine(engines[0], text, cfg, loop, slots[0]);
      var next, o := first.0, first.1;
      AttemptWithinLimits(engines[0], text, cfg, loop, slots[0]);
      if !o.Returned? {
        LoopWithinLimits(engines[1..], slots[1..], text, cfg, next);
      }
    }
  }

  /** A counter that starts a cycle within its limit ends it within its limit. */
  lemma CycleRespectsLimits(text: string, c: Cycle, loop: Loop)
    requires GetGtxStats(loop.store.gtxStats).dailyUsage <= c.config.gtxDailyLimit
    requires GetStats(loop.store.stats).dailyUsageChars <= c.config.officialDailyLimit
    requires GetStats(loop.store.stats).monthlyUsageChars <= c.config.officialMonthlyLimit
    requires |loop.timestamps| <= RateLimit.HourlyLimit
    ensures var after := RunCycle(text, c, loop).loop;
            && GetGtxStats(after.store.gtxStats).dailyUsage <= c.config.gtxDailyLimit
            && GetStats(after.store.stats).dailyUsageChars <= c.config.officialDailyLimit
            && GetStats(after.store.stats).monthlyUsageChars <= c.config.officialMonthlyLimit
            && |after.timestamps| <= RateLimit.HourlyLimit
  {
    var p := Prepare(loop, c);
    LoopWithinLimits(Priorities(c.config), Slots(c), text, c.config, p);
  }
}

=== FILE: jsstring.dfy ===
/** The JavaScript string primitives the extension relies on: UTF-16 length,
    `trim`, `toLowerCase`, `split(",")`, decimal formatting of numbers and
    `parseInt(s, 10)`. Strings are sequences of Unicode scalar values; where
    JavaScript counts UTF-16 code units, the count is computed per character. */
module JsString {
  import opened Common

  // ---------------------------------------------------------------- length

  /** The UTF-16 code units a character occupies: two for a character outside
      the Basic Multilingual Plane (a surrogate pair), one otherwise. */
  function CodeUnits(c: char): nat {
    if c as int >= 0x10000 then 2 else 1
  }

  /** `s.length` in JavaScript. */
  function Length(s: string): (n: nat)
    ensures |s| <= n <= 2 * |s|
    ensures n == 0 <==> s == []
    // text inside the Basic Multilingual Plane has one code unit per character
    ensures (forall i :: 0 <= i < |s| ==> s[i] as int < 0x10000) ==> n == |s|
  {
    if s == [] then 0 else CodeUnits(s[0]) + Length(s[1..])
  }

  /** A single character is as long as its code units. */
  lemma LengthOfChar(c: char)
    ensures Length([c]) == CodeUnits(c)
  {
    assert [c][1..] == [];
  }

  /** Length is additive: `(a + b).length == a.length + b.length`. */
  lemma {:induction false} LengthAppend(a: string, b: string)
    ensures Length(a + b) == Length(a) + Length(b)
  {
    if a != [] {
      assert (a + b)[1..] == a[1..] + b;
      LengthAppend(a[1..], b);
    } else {
      assert a + b == b;
    }
  }

  // ---------------------------------------------------------------- trim

  /** WhiteSpace and LineTerminator code points of ECMAScript, the set that
      `String.prototype.trim` and `parseInt` skip. */
  predicate IsWhitespace(c: char) {
    c == '\t' || c == '\n' || c == '\U{000B}' || c == '\U{000C}' || c == '\r' || c == ' '
    || c == '\U{00A0}' || c == '\U{1680}' || ('\U{2000}' <= c <= '\U{200A}')
    || c == '\U{2028}' || c == '\U{2029}' || c == '\U{202F}' || c == '\U{205F}'
    || c == '\U{3000}' || c == '\U{FEFF}'
  }

  /** Number of leading whitespace characters. */
  function LeadingSpace(s: string): (k: nat)
    ensures k <= |s|
    ensures forall i :: 0 <= i < k ==> IsWhitespace(s[i])
    ensures k < |s| ==> !IsWhitespace(s[k])
  {
    if s == [] || !IsWhitespace(s[0]) then 0 else 1 + LeadingSpace(s[1..])
  }

  /** Number of trailing whitespace characters. */
  function TrailingSpace(s: string): (k: nat)
    ensures k <= |s|
    ensures forall i :: |s| - k <= i < |s| ==> IsWhitespace(s[i])
    ensures k < |s| ==> !IsWhitespace(s[|s| - k - 1])
  {
    if s == [] || !IsWhitespace(s[|s| - 1]) then 0 else 1 + TrailingSpace(s[..|s| - 1])
  }

  /** `s.trimStart()`: the suffix after the leading whitespace. */
  function TrimStart(s: string): (r: string)
    ensures r == s[LeadingSpace(s)..]
    ensures r == [] || !IsWhitespace(r[0])
  {
    s[LeadingSpace(s)..]
  }

  /** `s.trim()`: the characters strictly between the leading and the trailing
      whitespace runs. */
  function Trim(s: string): (r: string)
    ensures exists a, b :: 0 <= a <= b <= |s| && r == s[a..b]
              && (forall i :: 0 <= i < a ==> IsWhitespace(s[i]))
              && (forall i :: b <= i < |s| ==> IsWhitespace(s[i]))
    ensures r == [] || (!IsWhitespace(r[0]) && !IsWhitespace(r[|r| - 1]))
    ensures (forall i :: 0 <= i < |s| ==> IsWhitespace(s[i])) <==> r == []
  {
    var t := TrimStart(s);
    var r := t[..|t| - TrailingSpace(t)];
    var a := LeadingSpace(s);
    assert r == s[a..a + |r|];
    assert t != [] ==> TrailingSpace(t) < |t|;
    r
  }

  /** Trimming twice trims nothing more. */
  lemma TrimIdempotent(s: string)
    ensures Trim(Trim(s)) == Trim(s)
  {
    var r := Trim(s);
    assert LeadingSpace(r) == 0;
    assert TrailingSpace(r) == 0;
  }

  // ---------------------------------------------------------------- case

  /** `c.toLowerCase()` for ASCII letters; every other character is unchanged. */
  function LowerChar(c: char): (r: char)
    ensures 'A' <= c <= 'Z' ==> r as int == c as int + 32
    ensures !('A' <= c <= 'Z') ==> r == c
  {
    if 'A' <= c <= 'Z' then (c as int + 32) as char else c
  }

  /** `s.toLowerCase()`, character by character. */
  function ToLower(s: string): (r: string)
    ensures |r| == |s|
    ensures forall i :: 0 <= i < |s| ==> r[i] == LowerChar(s[i])
  {
    if s == [] then [] else [LowerChar(s[0])] + ToLower(s[1..])
  }

  // ---------------------------------------------------------------- split

  /** `parts.join("")`: the pieces one after another. */
  function Concat(parts: seq<string>): (r: string)
    ensures parts == [] ==> r == []
  {
    if parts == [] then [] else parts[0] + Concat(parts[1..])
  }

  /** `parts.join(sep)`. */
  function Join(parts: seq<string>, sep: char): string {
    if parts == [] then []
    else if |parts| == 1 then parts[0]
    else parts[0] + [sep] + Join(parts[1..], sep)
  }

  /** `s.split(sep)` for a one-character separator: the maximal separator-free
      pieces, in order, whose join with the separator gives back `s`. */
  function Split(s: string, sep: char): (parts: seq<string>)
    ensures |parts| >= 1
    ensures forall i :: 0 <= i < |parts| ==> sep !in parts[i]
    ensures Join(parts, sep) == s
  {
    if s == [] then [[]]
    else
      var rest := Split(s[1..], sep);
      assert s == [s[0]] + s[1..];
      if s[0] == sep then
        [[]] + rest
      else
        var parts := [[s[0]] + rest[0]] + rest[1..];
        assert parts[1..] == rest[1..];
        parts
  }

  /** Splitting a join of separator-free pieces gives the pieces back. */
  lemma {:induction false} SplitJoin(parts: seq<string>, sep: char)
    requires |parts| >= 1
    requires forall i :: 0 <= i < |parts| ==> sep !in parts[i]
    ensures Split(Join(parts, sep), sep) == parts
  {
    if |parts| == 1 {
      SplitSeparatorFree(parts[0], sep);
    } else {
      var tail := Join(parts[1..], sep);
      SplitJoin(parts[1..], sep);
      SplitPrefix(parts[0], tail, sep);
    }
  }

  /** A string without the separator splits into itself. */
  lemma {:induction false} SplitSeparatorFree(s: string, sep: char)
    requires sep !in s
    ensures Split(s, sep) == [s]
  {
    if s != [] {
      assert sep !in s[1..];
      SplitSeparatorFree(s[1..], sep);
      assert [s[0]] + s[1..] == s;
    }
  }

  /** Splitting `p + sep + t` with a separator-free `p` yields `p` then the pieces of `t`. */
  lemma {:induction false} SplitPrefix(p: string, t: string, sep: char)
    requires sep !in p
    ensures Split(p + [sep] + t, sep) == [p] + Split(t, sep)
  {
    if p == [] {
      assert p + [sep] + t == [sep] + t;
      assert ([sep] + t)[1..] == t;
    } else {
      var s := p + [sep] + t;
      assert s[0] == p[0];
      assert s[1..] == p[1..] + [sep] + t;
      assert sep !in p[1..];
      SplitPrefix(p[1..], t, sep);
      assert [p[0]] + p[1..] == p;
    }
  }

  // ---------------------------------------------------------------- numbers

  predicate IsDigit(c: char) {
    '0' <= c <= '9'
  }

  function DigitChar(d: nat): (c: char)
    requires d < 10
    ensures IsDigit(c)
  {
    ('0' as int + d) as char
  }

  function DigitValue(c: char): (d: nat)
    requires IsDigit(c)
    ensures d < 10
  {
    c as int - '0' as int
  }

  /** The decimal text of a natural number: what `String(n)` gives for a
      safe integer (JavaScript numbers are doubles, and from 1e21 on their
      text is in exponent form). */
  function NatToString(n: nat): (r: string)
    ensures |r| >= 1
    ensures forall i :: 0 <= i < |r| ==> IsDigit(r[i])
    ensures r[0] == '0' ==> n == 0
  {
    if n < 10 then [DigitChar(n)] else NatToString(n / 10) + [DigitChar(n % 10)]
  }

  /** The decimal text of an integer: a minus sign before a negative magnitude. */
  function IntToString(n: int): (r: string)
    ensures |r| >= 1
    ensures n >= 0 ==> IsDigit(r[0])
    ensures n < 0 ==> r[0] == '-'
    ensures forall i :: 0 < i < |r| ==> IsDigit(r[i])
    ensures n < 0 ==> |r| >= 2
  {
    if n < 0 then "-" + NatToString(-n) else NatToString(n)
  }

  /** `Number.MAX_SAFE_INTEGER`, 2^53 - 1: the largest magnitude up to which
      every integer is a double, so that `String` and `parseInt` are exact. */
  const MaxSafeInteger: int := 0x1F_FFFF_FFFF_FFFF

  predicate IsSafeInteger(n: int) {
    -MaxSafeInteger <= n <= MaxSafeInteger
  }

  /** The value of a run of decimal digits. */
  function DigitsValue(s: string): nat
    requires forall i :: 0 <= i < |s| ==> IsDigit(s[i])
  {
    if s == [] then 0 else 10 * DigitsValue(s[..|s| - 1]) + DigitValue(s[|s| - 1])
  }

  /** Number of leading decimal digits. */
  function LeadingDigits(s: string): (k: nat)
    ensures k <= |s|
    ensures forall i :: 0 <= i < k ==> IsDigit(s[i])
    ensures k < |s| ==> !IsDigit(s[k])
  {
    if s == [] || !IsDigit(s[0]) then 0 else 1 + LeadingDigits(s[1..])
  }

  /** The text after an optional leading sign. */
  function Unsigned(t: string): (u: string)
    ensures t != [] && (t[0] == '-' || t[0] == '+') ==> u == t[1..]
    ensures !(t != [] && (t[0] == '-' || t[0] == '+')) ==> u == t
  {
    if t != [] && (t[0] == '-' || t[0] == '+') then t[1..] else t
  }

  /** The value of the leading run of digits, `None` when there is none. */
  function ReadDigits(u: string): (r: Option<nat>)
    ensures r.None? <==> u == [] || !IsDigit(u[0])
  {
    var k := LeadingDigits(u);
    if k == 0 then None else Some(DigitsValue(u[..k]))
  }

  /** `parseInt(s, 10)`: skip leading whitespace, read an optional sign, then
      the longest run of decimal digits; `None` stands for `NaN` (no digit). */
  function ParseInt(s: string): (r: Option<int>)
    ensures r.None? <==> ReadDigits(Unsigned(TrimStart(s))).None?
  {
    var t := TrimStart(s);
    match ReadDigits(Unsigned(t))
    case None => None
    case Some(v) =>
      var w: int := v;
      Some(if t[0] == '-' then -w else w)
  }

  lemma {:induction false} DigitsOfNatToString(n: nat)
    ensures DigitsValue(NatToString(n)) == n
  {
    if n >= 10 {
      DigitsOfNatToString(n / 10);
      var s := NatToString(n);
      assert s[..|s| - 1] == NatToString(n / 10);
    }
  }

  lemma {:induction false} LeadingDigitsOfPrefix(d: string, rest: string)
    requires forall i :: 0 <= i < |d| ==> IsDigit(d[i])
    requires rest == [] || !IsDigit(rest[0])
    ensures LeadingDigits(d + rest) == |d|
  {
    if d != [] {
      assert (d + rest)[1..] == d[1..] + rest;
      LeadingDigitsOfPrefix(d[1..], rest);
    }
  }

  /** Text that starts with a digit or a minus sign has no leading whitespace. */
  lemma NoLeadingSpace(s: string)
    requires s != [] && (IsDigit(s[0]) || s[0] == '-')
    ensures TrimStart(s) == s
  {
    assert LeadingSpace(s) == 0;
  }


  /** A digit run followed by a non-digit reads as the run's value. */
  lemma ReadDigitsOfPrefix(d: string, rest: string)
    requires forall i :: 0 <= i < |d| ==> IsDigit(d[i])
    requires rest == [] || !IsDigit(rest[0])
    requires d != []
    ensures ReadDigits(d + rest) == Some(DigitsValue(d))
  {
    LeadingDigitsOfPrefix(d, rest);
    assert (d + rest)[..|d|] == d;
  }

  /** `parseInt` of text that starts with a digit run reads the run's value. */
  lemma ParseIntUnsigned(t: string, v: nat)
    requires t != [] && IsDigit(t[0])
    requires ReadDigits(t) == Some(v)
    ensures ParseInt(t) == Some(v)
  {
    NoLeadingSpace(t);
    assert Unsigned(t) == t;
  }

  /** `parseInt` of text that starts with a minus sign and a digit run reads
      the run's value negated. */
  lemma ParseIntNegative(t: string, v: nat)
    requires t != [] && t[0] == '-'
    requires ReadDigits(t[1..]) == Some(v)
    ensures ParseInt(t) == Some(-(v as int))
  {
    NoLeadingSpace(t);
    assert Unsigned(t) == t[1..];
  }

  /** `parseInt` of a digit run followed by a non-digit reads the run. */
  lemma ParseIntOfDigits(d: string, rest: string)
    requires d != [] && forall i :: 0 <= i < |d| ==> IsDigit(d[i])
    requires rest == [] || !IsDigit(rest[0])
    ensures ParseInt(d + rest) == Some(DigitsValue(d))
  {
    var t := d + rest;
    assert t[0] == d[0];
    ReadDigitsOfPrefix(d, rest);
    ParseIntUnsigned(t, DigitsValue(d));
  }

  /** Leading whitespace ends where the first other character stands. */
  lemma {:induction false} LeadingSpaceOfPrefix(ws: string, t: string)
    requires forall i :: 0 <= i < |ws| ==> IsWhitespace(ws[i])
    requires t == [] || !IsWhitespace(t[0])
    ensures LeadingSpace(ws + t) == |ws|
  {
    if ws != [] {
      assert (ws + t)[1..] == ws[1..] + t;
      LeadingSpaceOfPrefix(ws[1..], t);
    } else {
      assert ws + t == t;
    }
  }

  /** `parseInt` skips leading whitespace. */
  lemma ParseIntSkipsSpace(ws: string, t: string)
    requires forall i :: 0 <= i < |ws| ==> IsWhitespace(ws[i])
    requires t == [] || !IsWhitespace(t[0])
    ensures ParseInt(ws + t) == ParseInt(t)
  {
    LeadingSpaceOfPrefix(ws, t);
    assert (ws + t)[|ws|..] == t;
    assert TrimStart(t) == t;
  }

  /** `parseInt` of a sign character before a digit run: the run's value,
      negated after `-`. */
  lemma ParseIntSignChar(sign: char, u: string, v: nat)
    requires sign == '+' || sign == '-'
    requires ReadDigits(u) == Some(v)
    ensures ParseInt([sign] + u) == Some(if sign == '-' then -(v as int) else v)
  {
    var t := [sign] + u;
    assert t[0] == sign && t[1..] == u;
    assert LeadingSpace(t) == 0;
  }

  /** `parseInt` in general: after any leading whitespace and an optional
      sign (`+` or `-`), the leading digit run is read, negated after `-`.
      Together with the `NaN` case of `ParseInt`'s contract this fixes every
      result. */
  lemma ParseIntOfText(ws: string, sign: string, u: string, v: nat)
    requires forall i :: 0 <= i < |ws| ==> IsWhitespace(ws[i])
    requires |sign| <= 1 && (sign != [] ==> sign[0] == '+' || sign[0] == '-')
    requires ReadDigits(u) == Some(v)
    ensures ParseInt(ws + sign + u) == Some(if sign != [] && sign[0] == '-' then -(v as int) else v)
  {
    if sign == [] {
      assert ws + sign == ws;
      NoLeadingSpace(u);
      ParseIntUnsigned(u, v);
      ParseIntSkipsSpace(ws, u);
    } else {
      var t := [sign[0]] + u;
      assert sign == [sign[0]];
      ParseIntSignChar(sign[0], u, v);
      ParseIntSkipsSpace(ws, t);
      ConcatAssoc(ws, sign, u);
    }
  }

  /** Concatenation is associative. */
  lemma ConcatAssoc(a: string, b: string, c: string)
    ensures a + b + c == a + (b + c)
  {
  }

  /** `parseInt` reads back the decimal text of any integer, whatever
      non-digit text follows it. */
  lemma ParseIntOfIntToString(n: int, rest: string)
    requires rest == [] || !IsDigit(rest[0])
    ensures ParseInt(IntToString(n) + rest) == Some(n)
  {
    if n < 0 {
      ParseIntOfNegative(-n, rest);
    } else {
      var d := NatToString(n);
      assert IntToString(n) == d;
      DigitsOfNatToString(n);
      ParseIntOfDigits(d, rest);
    }
  }

  /** The negative half: a minus sign, then the magnitude's digits. */
  lemma ParseIntOfNegative(m: nat, rest: string)
    requires m > 0
    requires rest == [] || !IsDigit(rest[0])
    ensures ParseInt(IntToString(-(m as int)) + rest) == Some(-(m as int))
  {
    var d := NatToString(m);
    var t := IntToString(-(m as int)) + rest;
    assert IntToString(-(m as int)) == "-" + d;
    assert t[0] == '-' && t[1..] == d + rest;
    DigitsOfNatToString(m);
    ReadDigitsOfPrefix(d, rest);
    ParseIntNegative(t, m);
  }
}

=== FILE: popup.dfy ===
/** The settings page: how the form is normalised and validated before it is
    written to storage, how the form is filled back from storage, and the
    arithmetic of the usage bars. Percentages are exact reals; `NaN` is `None`. */
module Popup {
  import opened Common
  import opened JsString
  import opened Availability

  /** The form's fields as the page reads them (`.value` is text; the toggle is a checkbox). */
  datatype Form = Form(
    enabled: bool,
    color: string,
    apiKey: string,
    gtxLimit: string,
    officialDailyLimit: string,
    officialMonthlyLimit: string,
    gtxRpm: string,
    priority1: string,
    priority2: string,
    priority3: string,
    localUrl: string,
    localModel: string,
    localPrompt: string,
    ignoredUsers: string)

  /** The record `saveOptions` writes: the background worker's settings and
      the ones only the chat page reads. */
  datatype Settings = Settings(enabled: bool, color: string, config: Config, ignoredUsers: string)

  datatype SaveResult = Rejected(status: string) | Written(settings: Settings)

  const InvalidKeyStatus := "Invalid API Key format."

  /** Keys shorter than this are refused (Google keys are about 39 characters). */
  const MinKeyLength: nat := 20

  /** `parseInt(field, 10) || fallback`: `NaN` and zero are falsy and give the
      fallback; every other integer, negative ones included, is kept. */
  function IntOr(field: string, fallback: int): (r: int)
    ensures fallback != 0 ==> r != 0
    ensures r == fallback || ParseInt(field) == Some(r)
    ensures ParseInt(field).Some? && ParseInt(field).value != 0 ==> r == ParseInt(field).value
  {
    match ParseInt(field)
    case Some(v) => if v != 0 then v else fallback
    case None => fallback
  }

  /** `apiKey && apiKey.length < 20` on the trimmed key: an empty key is allowed. */
  predicate KeyRejected(key: string) {
    key != "" && Length(key) < MinKeyLength
  }

  /** `saveOptions`: a short key aborts with a status message and nothing is
      written; otherwise the numeric fields fall back to their defaults when
      not a non-zero integer, the key and the three local-model fields are
      trimmed, and everything else is written as entered. */
  function SaveOptions(form: Form): (r: SaveResult)
    ensures r.Rejected? <==> KeyRejected(Trim(form.apiKey))
    ensures r.Rejected? ==> r.status == InvalidKeyStatus
    ensures r.Written? ==>
              var c := r.settings.config;
              // the limits the background worker reads are never zero
              && c.gtxDailyLimit != 0 && c.officialDailyLimit != 0
              && c.officialMonthlyLimit != 0 && c.gtxRpm != 0
              // each limit is the field's integer, or its default
              && c.gtxDailyLimit == IntOr(form.gtxLimit, 1000)
              && c.officialDailyLimit == IntOr(form.officialDailyLimit, 50000)
              && c.officialMonthlyLimit == IntOr(form.officialMonthlyLimit, 500000)
              && c.gtxRpm == IntOr(form.gtxRpm, 12)
              // a stored key is empty or long enough
              && (c.googleApiKey == "" || Length(c.googleApiKey) >= MinKeyLength)
              && c.googleApiKey == Trim(form.apiKey)
              && c.localUrl == Trim(form.localUrl)
              && c.localModel == Trim(form.localModel)
              && c.localPrompt == Trim(form.localPrompt)
              && [c.priority1, c.priority2, c.priority3] == [form.priority1, form.priority2, form.priority3]
              && r.settings.ignoredUsers == form.ignoredUsers
              && r.settings.enabled == form.enabled && r.settings.color == form.color
  {
    var apiKey := Trim(form.apiKey);
    var cfg := Config(
      apiKey,
      IntOr(form.gtxLimit, 1000),
      IntOr(form.officialDailyLimit, 50000),
      IntOr(form.officialMonthlyLimit, 500000),
      IntOr(form.gtxRpm, 12),
      form.priority1, form.priority2, form.priority3,
      Trim(form.localUrl), Trim(form.localModel), Trim(form.localPrompt));
    if KeyRejected(apiKey) then Rejected(InvalidKeyStatus)
    else Written(Settings(form.enabled, form.color, cfg, form.ignoredUsers))
  }

  /** `restoreOptions`: the form filled from stored settings; numbers are
      shown in their decimal text. */
  function RestoreOptions(s: Settings): (f: Form)
    ensures f.apiKey == s.config.googleApiKey && f.ignoredUsers == s.ignoredUsers
    ensures f.enabled == s.enabled && f.color == s.color
    ensures [f.priority1, f.priority2, f.priority3] == [s.config.priority1, s.config.priority2, s.config.priority3]
    ensures [f.localUrl, f.localModel, f.localPrompt] == [s.config.localUrl, s.config.localModel, s.config.localPrompt]
    // each number is shown as text that `parseInt` reads back
    ensures ParseInt(f.gtxLimit) == Some(s.config.gtxDailyLimit)
    ensures ParseInt(f.officialDailyLimit) == Some(s.config.officialDailyLimit)
    ensures ParseInt(f.officialMonthlyLimit) == Some(s.config.officialMonthlyLimit)
    ensures ParseInt(f.gtxRpm) == Some(s.config.gtxRpm)
  {
    var c := s.config;
    ReadsBack(c.gtxDailyLimit);
    ReadsBack(c.officialDailyLimit);
    ReadsBack(c.officialMonthlyLimit);
    ReadsBack(c.gtxRpm);
    Form(s.enabled, s.color, c.googleApiKey,
         IntToString(c.gtxDailyLimit), IntToString(c.officialDailyLimit),
         IntToString(c.officialMonthlyLimit), IntToString(c.gtxRpm),
         c.priority1, c.priority2, c.priority3,
         c.localUrl, c.localModel, c.localPrompt, s.ignoredUsers)
  }

  /** A number shown in its decimal text is read back unchanged. */
  lemma ReadsBack(n: int)
    ensures ParseInt(IntToString(n)) == Some(n)
  {
    ParseIntOfIntToString(n, "");
    assert IntToString(n) + "" == IntToString(n);
  }

  /** A non-zero safe integer shown in its decimal text passes through the
      field's fallback unchanged. */
  lemma IntOrOfIntToString(n: int, fallback: int)
    requires n != 0 && IsSafeInteger(n)
    ensures IntOr(IntToString(n), fallback) == n
  {
    ReadsBack(n);
  }

  /** The fallbacks and pass-throughs of the numeric fields. */
  lemma IntOrExamples()
    ensures IntOr("0", 1000) == 1000
    ensures IntOr("", 12) == 12
    ensures IntOr("-5", 1000) == -5
    ensures IntOr("250", 1000) == 250
  {
    ParseZero();
    ParseMinusFive();
    ParseTwoHundredFifty();
  }

  lemma ParseZero()
    ensures ParseInt("0") == Some(0)
  {
    ParseIntOfDigits("0", "");
    assert "0" + "" == "0";
  }

  lemma ParseMinusFive()
    ensures ParseInt("-5") == Some(-5)
  {
    ParseIntOfIntToString(-5, "");
    assert IntToString(-5) + "" == "-5";
  }

  lemma ParseTwoHundredFifty()
    ensures ParseInt("250") == Some(250)
  {
    ParseIntOfIntToString(250, "");
    assert IntToString(250) + "" == "250";
  }

  /** The four limits are integers that JavaScript's numbers hold exactly. */
  predicate SafeLimits(c: Config) {
    IsSafeInteger(c.gtxDailyLimit) && IsSafeInteger(c.officialDailyLimit)
    && IsSafeInteger(c.officialMonthlyLimit) && IsSafeInteger(c.gtxRpm)
  }

  /** Opening the page and saving without edits writes back what was
      stored: saving is idempotent on its own output, whenever the limits
      saved are safe integers. */
  lemma ResaveIsStable(form: Form)
    ensures SaveOptions(form).Written? && SafeLimits(SaveOptions(form).settings.config) ==>
              SaveOptions(RestoreOptions(SaveOptions(form).settings)) == SaveOptions(form)
  {
    if SaveOptions(form).Written? && SafeLimits(SaveOptions(form).settings.config) {
      var s := SaveOptions(form).settings;
      var c := s.config;
      IntOrOfIntToString(c.gtxDailyLimit, 1000);
      IntOrOfIntToString(c.officialDailyLimit, 50000);
      IntOrOfIntToString(c.officialMonthlyLimit, 500000);
      IntOrOfIntToString(c.gtxRpm, 12);
      TrimIdempotent(form.apiKey);
      TrimIdempotent(form.localUrl);
      TrimIdempotent(form.localModel);
      TrimIdempotent(form.localPrompt);
    }
  }

  // ---------------------------------------------------------------- usage bars

  /** `Math.max(0, limit - usage)`. */
  function Remaining(limit: int, usage: nat): (r: nat)
    ensures r == 0 <==> usage >= limit
    ensures r > 0 ==> usage + r == limit
  {
    if limit - usage > 0 then limit - usage else 0
  }

  /** `Math.min((usage / limit) * 100, 100)`: `usage / 0` is `Infinity` (so
      100) for a positive usage and `NaN` for none. */
  function Percentage(usage: nat, limit: int): (p: Option<real>)
    ensures p.None? <==> usage == 0 && limit == 0
    ensures p.Some? ==> p.value <= 100.0
    ensures limit > 0 ==> p.Some? && (p.value >= 100.0 <==> usage >= limit)
                          && (p.value > 80.0 <==> 5 * usage > 4 * limit)
    ensures limit < 0 ==> p.Some? && p.value <= 0.0
    ensures limit == 0 && usage > 0 ==> p == Some(100.0)
    // below a positive limit, and at any negative one, the share itself
    ensures limit != 0 && (limit < 0 || usage < limit) ==>
              p.Some? && p.value * limit as real == usage as real * 100.0
    ensures limit > 0 && usage >= limit ==> p == Some(100.0)
  {
    if limit == 0 then (if usage == 0 then None else Some(100.0))
    else
      var q := usage as real / limit as real * 100.0;
      RatioBands(usage, limit);
      Some(if q < 100.0 then q else 100.0)
  }

  /** Where `usage / limit * 100` falls, in integer terms. */
  lemma RatioBands(usage: nat, limit: int)
    requires limit != 0
    ensures var q := usage as real / limit as real * 100.0;
            && (limit > 0 ==> (q >= 100.0 <==> usage >= limit) && (q > 80.0 <==> 5 * usage > 4 * limit))
            && (limit < 0 ==> q <= 0.0)
  {
    var l := limit as real;
    var u := usage as real;
    if limit > 0 {
      QuotientAbove(u, l, 1.0);
      QuotientAbove(u, l, 0.8);
    } else {
      var d := u / l;
      assert d * l == u;
      NonPositiveQuotient(d, l, u);
    }
  }

  /** `u / l > k` (and `>=` at `k`) compares `u` with `k * l`, for a positive `l`. */
  lemma QuotientAbove(u: real, l: real, k: real)
    requires l > 0.0
    ensures u / l * 100.0 > k * 100.0 <==> u > k * l
    ensures u / l * 100.0 >= k * 100.0 <==> u >= k * l
  {
    var d := u / l;
    assert d * l == u;
    Monotone(d, k, l);
  }

  lemma Monotone(d: real, k: real, l: real)
    requires l > 0.0
    ensures d > k <==> d * l > k * l
    ensures d >= k <==> d * l >= k * l
  {
    assert d * l - k * l == (d - k) * l;
  }

  lemma NonPositiveQuotient(d: real, l: real, u: real)
    requires l < 0.0 && u >= 0.0 && d * l == u
    ensures d * 100.0 <= 0.0
  {
  }

  /** The three bars of the page. */
  datatype Bar = MonthlyBar | OfficialDailyBar | GtxBar

  const Red := "#f44336"
  const Orange := "#ff9800"

  /** The colour of a bar with room left: purple for the official daily bar,
      blue for GTX, green otherwise. */
  function BaseColour(bar: Bar): (c: string)
    ensures c != Red && c != Orange
  {
    match bar
    case OfficialDailyBar => "#9c27b0"
    case GtxBar => "#2196F3"
    case MonthlyBar => "#4caf50"
  }

  /** The colour band of `updateBar` and `updateGtxUsageStats`: red when
      full, orange above 80, the base colour otherwise (`NaN` fails both tests). */
  function BarColour(bar: Bar, pct: Option<real>): (c: string)
    ensures c == Red <==> pct.Some? && pct.value >= 100.0
    ensures c == Orange <==> pct.Some? && 80.0 < pct.value < 100.0
    ensures c != Red && c != Orange ==> c == BaseColour(bar)
  {
    match pct
    case None => BaseColour(bar)
    case Some(p) => if p >= 100.0 then Red else if p > 80.0 then Orange else BaseColour(bar)
  }

  /** For a positive limit the colour is decided by usage alone: red once the
      limit is reached, orange above four fifths of it, the base colour below. */
  lemma ColourByUsage(bar: Bar, usage: nat, limit: int)
    requires limit > 0
    ensures var c := BarColour(bar, Percentage(usage, limit));
            && (c == Red <==> usage >= limit)
            && (c == Orange <==> 4 * limit < 5 * usage && usage < limit)
            && (c == BaseColour(bar) <==> 5 * usage <= 4 * limit)
  {
  }

  /** A negative limit, which saving lets through, gives the bar the base
      colour and nothing remaining, while the background worker refuses the
      engine outright. Its percentage is 0 without usage and negative with
      some, a width the page cannot show. */
  lemma NegativeLimitLooksIdle(bar: Bar, usage: nat, limit: int)
    requires limit < 0
    ensures BarColour(bar, Percentage(usage, limit)) == BaseColour(bar)
    ensures Remaining(limit, usage) == 0
    ensures Percentage(usage, limit).Some?
    ensures usage == 0 ==> Percentage(usage, limit).value == 0.0
    ensures usage > 0 ==> Percentage(usage, limit).value < 0.0
  {
    var p := Percentage(usage, limit).value;
    if usage > 0 {
      assert p * limit as real > 0.0;
    } else {
      assert p * limit as real == 0.0;
    }
  }
}

=== FILE: quota.dfy ===
/** The persisted usage counters of the two metered engines and their lazy
    reset checks. Storage is an explicit value: each record is either absent
    (never written) or present, and the getters supply the defaults the
    extension applies when a record is missing. Day and billing-period keys are
    opaque strings computed from the clock outside the model. */
module Quota {
  import opened Common

  /** `gtxStats`: requests made through the free endpoint today. */
  datatype GtxStats = GtxStats(dailyUsage: nat, lastResetDay: Option<string>)

  /** `stats`: characters sent to the official API, with two independent reset clocks. */
  datatype OfficialStats = OfficialStats(
    monthlyUsageChars: nat,
    dailyUsageChars: nat,
    lastResetDate: Option<string>,       // instant of the last monthly reset
    lastDailyResetDate: Option<string>,  // local day of the last daily reset
    lastResetPeriod: Option<string>)     // "month-year" of the last monthly reset

  /** The two persisted records. */
  datatype Store = Store(gtxStats: Option<GtxStats>, stats: Option<OfficialStats>)

  const EmptyStore := Store(None, None)

  /** `getGtxStats`: the stored record, or zero usage never reset. */
  function GetGtxStats(stored: Option<GtxStats>): (g: GtxStats)
    ensures stored.Some? ==> g == stored.value
    ensures stored.None? ==> g.dailyUsage == 0 && g.lastResetDay.None?
  {
    match stored
    case Some(g) => g
    case None => GtxStats(0, None)
  }

  /** `getStats`: the stored record with missing counters read as zero. The
      billing period is never defaulted, so a fresh record has none. */
  function GetStats(stored: Option<OfficialStats>): (s: OfficialStats)
    ensures stored.Some? ==> s == stored.value
    ensures stored.None? ==>
              s.monthlyUsageChars == 0 && s.dailyUsageChars == 0
              && s.lastDailyResetDate.None? && s.lastResetPeriod.None?
  {
    match stored
    case Some(s) => s
    case None => OfficialStats(0, 0, None, None, None)
  }

  /** `checkGtxQuotaReset`: on a new local day the GTX counter restarts at zero
      and the day is stamped; on the same day storage is left alone. */
  function CheckGtxQuotaReset(st: Store, today: string): (r: Store)
    ensures r.stats == st.stats
    ensures GetGtxStats(r.gtxStats).lastResetDay == Some(today)
    ensures GetGtxStats(st.gtxStats).lastResetDay == Some(today) ==> r == st
    ensures GetGtxStats(st.gtxStats).lastResetDay != Some(today) ==> GetGtxStats(r.gtxStats).dailyUsage == 0
  {
    var g := GetGtxStats(st.gtxStats);
    if g.lastResetDay != Some(today) then
      st.(gtxStats := Some(GtxStats(0, Some(today))))
    else st
  }

  /** `checkQuotaReset`: on a new Pacific-time billing period the monthly
      character count restarts at zero and the period and instant are stamped;
      the daily count and its stamp are never touched. */
  function CheckQuotaReset(st: Store, period: string, isoNow: string): (r: Store)
    ensures r.gtxStats == st.gtxStats
    ensures var before, after := GetStats(st.stats), GetStats(r.stats);
            && after.lastResetPeriod == Some(period)
            && after.dailyUsageChars == before.dailyUsageChars
            && after.lastDailyResetDate == before.lastDailyResetDate
            && (before.lastResetPeriod == Some(period) ==> r == st)
            && (before.lastResetPeriod != Some(period) ==>
                  after.monthlyUsageChars == 0 && after.lastResetDate == Some(isoNow))
  {
    var s := GetStats(st.stats);
    if s.lastResetPeriod != Some(period) then
      st.(stats := Some(s.(monthlyUsageChars := 0, lastResetPeriod := Some(period), lastResetDate := Some(isoNow))))
    else st
  }

  /** `checkOfficialDailyReset`: on a new local day the daily character count
      restarts at zero and the day is stamped; the monthly side is never touched. */
  function CheckOfficialDailyReset(st: Store, today: string): (r: Store)
    ensures r.gtxStats == st.gtxStats
    ensures var before, after := GetStats(st.stats), GetStats(r.stats);
            && after.lastDailyResetDate == Some(today)
            && after.monthlyUsageChars == before.monthlyUsageChars
            && after.lastResetPeriod == before.lastResetPeriod
            && after.lastResetDate == before.lastResetDate
            && (before.lastDailyResetDate == Some(today) ==> r == st)
            && (before.lastDailyResetDate != Some(today) ==> after.dailyUsageChars == 0)
  {
    var s := GetStats(st.stats);
    if s.lastDailyResetDate != Some(today) then
      st.(stats := Some(s.(dailyUsageChars := 0, lastDailyResetDate := Some(today))))
    else st
  }

  /** `updateGtxStats(count)`: adds to the daily request count only. */
  function UpdateGtxStats(st: Store, count: nat): (r: Store)
    ensures r.stats == st.stats
    ensures GetGtxStats(r.gtxStats).dailyUsage == GetGtxStats(st.gtxStats).dailyUsage + count
    ensures GetGtxStats(r.gtxStats).lastResetDay == GetGtxStats(st.gtxStats).lastResetDay
  {
    var g := GetGtxStats(st.gtxStats);
    st.(gtxStats := Some(g.(dailyUsage := g.dailyUsage + count)))
  }

  /** `updateStats(charsAdded)`: adds to both the daily and the monthly
      character counts; every stamp is kept. */
  function UpdateStats(st: Store, chars: nat): (r: Store)
    ensures r.gtxStats == st.gtxStats
    ensures var before, after := GetStats(st.stats), GetStats(r.stats);
            && after.monthlyUsageChars == before.monthlyUsageChars + chars
            && after.dailyUsageChars == before.dailyUsageChars + chars
            && after.lastResetDate == before.lastResetDate
            && after.lastDailyResetDate == before.lastDailyResetDate
            && after.lastResetPeriod == before.lastResetPeriod
  {
    var s := GetStats(st.stats);
    st.(stats := Some(s.(monthlyUsageChars := s.monthlyUsageChars + chars,
                         dailyUsageChars := s.dailyUsageChars + chars)))
  }

  /** The three lazy checks a dispatch cycle runs, in the extension's order:
      monthly official, daily official, daily GTX. */
  function ResetAll(st: Store, today: string, period: string, isoNow: string): (r: Store)
    ensures GetGtxStats(r.gtxStats).lastResetDay == Some(today)
    ensures GetStats(r.stats).lastDailyResetDate == Some(today)
    ensures GetStats(r.stats).lastResetPeriod == Some(period)
  {
    CheckGtxQuotaReset(CheckOfficialDailyReset(CheckQuotaReset(st, period, isoNow), today), today)
  }

  // ---------------------------------------------------------------- properties

  /** Each reset check is idempotent: a second call with the same key changes nothing. */
  lemma ResetsIdempotent(st: Store, today: string, period: string, isoNow: string)
    ensures CheckGtxQuotaReset(CheckGtxQuotaReset(st, today), today) == CheckGtxQuotaReset(st, today)
    ensures CheckQuotaReset(CheckQuotaReset(st, period, isoNow), period, isoNow) == CheckQuotaReset(st, period, isoNow)
    ensures CheckOfficialDailyReset(CheckOfficialDailyReset(st, today), today) == CheckOfficialDailyReset(st, today)
  {
  }

  /** A whole reset pass is idempotent within one day and one billing period,
      even when the instant stamp differs. */
  lemma ResetAllIdempotent(st: Store, today: string, period: string, iso1: string, iso2: string)
    ensures ResetAll(ResetAll(st, today, period, iso1), today, period, iso2) == ResetAll(st, today, period, iso1)
  {
  }

  /** A fresh installation always takes the monthly branch, whatever the period,
      because the stored record carries no period. */
  lemma FreshRecordTriggersMonthlyReset(g: Option<GtxStats>, period: string, isoNow: string)
    ensures CheckQuotaReset(Store(g, None), period, isoNow)
            == Store(g, Some(OfficialStats(0, 0, Some(isoNow), None, Some(period))))
  {
  }

  /** The daily and monthly official clocks are independent: running the two
      checks in either order gives the same storage. */
  lemma OfficialResetsCommute(st: Store, today: string, period: string, isoNow: string)
    ensures CheckOfficialDailyReset(CheckQuotaReset(st, period, isoNow), today)
            == CheckQuotaReset(CheckOfficialDailyReset(st, today), period, isoNow)
  {
  }

  /** A new billing period leaves the daily count alone when the day has not
      changed, and a new day leaves the monthly count alone. */
  lemma MonthlyResetKeepsDaily(st: Store, today: string, period: string, isoNow: string)
    requires GetStats(st.stats).lastDailyResetDate == Some(today)
    requires GetStats(st.stats).lastResetPeriod != Some(period)
    ensures var after := GetStats(ResetAll(st, today, period, isoNow).stats);
            after.monthlyUsageChars == 0 && after.dailyUsageChars == GetStats(st.stats).dailyUsageChars
  {
  }
}

=== FILE: ratelimit.dfy ===
/** Rate limiting of the free GTX endpoint: the minimum spacing derived from
    the configured requests-per-minute, the delay before a request, and the
    rolling one-hour window of request timestamps (milliseconds). */
module RateLimit {

  /** Requests allowed in any rolling hour, whatever the configuration. */
  const HourlyLimit: nat := 99

  const OneHourMs: nat := 60 * 60 * 1000

  /** `Math.max(1, Math.min(gtxRpm, 120))`. */
  function SafeRpm(rpm: int): (r: int)
    ensures 1 <= r <= 120
    ensures 1 <= rpm <= 120 <==> r == rpm
    ensures rpm < 1 ==> r == 1
    ensures rpm > 120 ==> r == 120
  {
    if rpm < 1 then 1 else if rpm > 120 then 120 else rpm
  }

  /** `updateInterval`: milliseconds between two GTX requests, `60000 / safeRpm`. */
  function MinRequestInterval(rpm: int): (ms: real)
    ensures 500.0 <= ms <= 60000.0
    ensures ms * SafeRpm(rpm) as real == 60000.0
  {
    var k := SafeRpm(rpm) as real;
    IntervalBounds(k);
    60000.0 / k
  }

  lemma IntervalBounds(k: real)
    requires 1.0 <= k <= 120.0
    ensures 500.0 <= 60000.0 / k <= 60000.0
  {
    var q := 60000.0 / k;
    assert q * k == 60000.0;
  }

  /** The pause before a GTX request, given the time elapsed since the previous
      one: the missing part of the interval, or nothing once it has passed. */
  function Delay(interval: real, elapsed: int): (d: real)
    ensures d >= 0.0
    ensures d == 0.0 <==> elapsed as real >= interval
    ensures d > 0.0 ==> elapsed as real + d == interval
  {
    if (elapsed as real) < interval then interval - elapsed as real else 0.0
  }

  /** If the timer fires no earlier than asked, the request it releases is at
      least one interval after the previous one. */
  lemma DelayRestoresSpacing(interval: real, last: int, checkedAt: int, stampedAt: int)
    requires stampedAt as real >= checkedAt as real + Delay(interval, checkedAt - last)
    ensures (stampedAt - last) as real >= interval
  {
  }

  // ---------------------------------------------------------------- hourly window

  /** `b` contains the elements of `a` in the same relative order. */
  predicate IsSubsequence(a: seq<int>, b: seq<int>)
    decreases |b|
  {
    a == [] || (b != [] && ((a[0] == b[0] && IsSubsequence(a[1..], b[1..])) || IsSubsequence(a, b[1..])))
  }

  /** A timestamp still inside the rolling hour at `now`. */
  predicate Recent(ts: int, now: int) {
    now - ts < OneHourMs
  }

  /** `requestTimestamps.filter(ts => now - ts < ONE_HOUR_MS)`: exactly the
      recent timestamps, each as often as before, in their original order. */
  function Prune(ts: seq<int>, now: int): (r: seq<int>)
    ensures forall i :: 0 <= i < |r| ==> Recent(r[i], now)
    ensures forall t :: multiset(r)[t] == if Recent(t, now) then multiset(ts)[t] else 0
    ensures IsSubsequence(r, ts)
    ensures |r| <= |ts|
  {
    if ts == [] then []
    else
      var rest := Prune(ts[1..], now);
      assert ts == [ts[0]] + ts[1..];
      if Recent(ts[0], now) then
        var r := [ts[0]] + rest;
        assert r[1..] == rest;
        r
      else
        assert rest == [] || IsSubsequence(rest, ts[1..]);
        rest
  }

  /** Pruning twice at the same instant removes nothing more. */
  lemma {:induction false} PruneIdempotent(ts: seq<int>, now: int)
    ensures Prune(Prune(ts, now), now) == Prune(ts, now)
  {
    if ts != [] {
      PruneIdempotent(ts[1..], now);
    }
  }

  /** A later prune of an earlier prune is the later prune: time only shrinks the window. */
  lemma {:induction false} PruneMonotone(ts: seq<int>, earlier: int, later: int)
    requires earlier <= later
    ensures Prune(Prune(ts, earlier), later) == Prune(ts, later)
  {
    if ts != [] {
      PruneMonotone(ts[1..], earlier, later);
    }
  }
}
